=== FILE: README.md ===
# Repository and getter scaffolding for Laravel, modelled in Dafny

This project models the core of the `maarsson` repository / eloquent-getter
package for Laravel. The package has five parts, and the model covers each:

- **Scaffolding commands.** `make:repository`, `make:getter` and `make:filter`
  turn a model name such as `Foo/Bar` or `Foo\Bar` into class files written
  from stub templates. This covers resolving the model name (namespace form,
  base name, path and namespace suffixes), choosing the target paths,
  substituting `{{placeholder}}`s, skipping existing files, stopping at a
  missing folder (`make:repository`), and printing the
  missing-model notice.
- **Folder and namespace convention.** Each role (models, contracts,
  repositories, events, listeners, getters, filters) maps to a folder leaf:
  the configured one, or `ucfirst(role)`. From that leaf come a path and an
  `App\...` namespace, each memoised in a property. Both generations of the
  convention are modelled: `UsesFolderConfig` and `UsesFolderConfigTrait`.
- **Naming and wiring.**
  - Event and listener class names for the two lifecycle stages.
  - The event-to-listener map built for every configured model.
  - The container bindings from contract or interface to repository, in both
    provider generations.
- **Request handling.**
  - Attribute specs such as `author.name` or `comments:id,body`, split into
    the relations to load and the attributes to return.
  - How the getter and filter base classes choose which filter methods to
    call, how they order results, and the page size.
- **The repository veto protocol.** `create`, `update` and `delete` fire a
  pre-event whose listeners can veto the operation by giving no response.
  This is modelled over an abstract store `map<Id, Attrs>`, with a fired-event
  trace. The older repository fires the same events but never consults the
  responses.

Everything the package gets from the framework is a parameter of the model:
`config()`, `app_path`, `Str::camel`, `isRelation`, the schema's `hasColumn`,
`method_exists` / `get_class_methods`, file existence and stub contents, and
the event dispatcher. The file system is a map from path to contents plus a
set of directories. Console output is a list of info and error lines.

PHP's own behaviour is modelled where the code depends on it:

- `empty()` on strings is true for `""` and `"0"`.
- `ucfirst` works on ASCII letters.
- `str_replace` scans left to right and never rescans inserted text. With
  arrays of needles it makes one pass per pair.
- `explode(d, s)[0]` is the text before the first `d`.
- `preg_match('/(.*)\/(.*)/')` does not let `.` match a line break.
- An assignment to an existing key of an ordered array keeps that key's
  position.
- Reading an uninitialised typed property is an error.

Two behaviours of the name handling are worth stating plainly. A model
name with a trailing separator (`Foo/`) is accepted and gives an empty base
name (`Names.TrailingSeparatorGivesEmptyBase`). `make:repository` applies
`ucfirst` to the model name, so `foo` produces `FooRepository`.

## Model

| member | source | states |
|---|---|---|
| Names.ToNamespaceFormat | src/Traits/UsesFolderConfigTrait.php:180-183 | every `/` becomes `\` and every other character is kept, so the length is kept and no `/` remains |
| Names.ToPathFormat | src/Traits/UsesFolderConfigTrait.php:192-195 | every `\` becomes `/` and every other character is kept, so the length is kept and no `\` remains |
| Names.NamespaceFormatIdempotent | src/Traits/UsesFolderConfigTrait.php:180-183 | converting to namespace form twice is the same as once |
| Names.PathFormatIdempotent | src/Traits/UsesFolderConfigTrait.php:192-195 | converting to path form twice is the same as once |
| Names.FormatRoundTrip | src/Traits/UsesFolderConfigTrait.php:180-195 | path form undoes namespace form on strings without `\`, and the reverse holds on strings without `/` |
| Names.PathOfNamespace | src/Traits/UsesFolderConfigTrait.php:180-195 | a name and its namespace form have the same path form |
| Php.Memoised | src/Traits/UsesFolderConfig.php:20-39 | the lazy-property rule behind every folder and namespace lookup: a non-empty stored value is returned and nothing changes; an unset or empty one (`""`, `"0"`) is replaced by the computed value, which is then stored under the key |
| Php.MemoisedStable | src/Traits/UsesFolderConfigTrait.php:75-81 | a second lookup returns the value the first stored and leaves the properties as the first left them |
| Names.NamespaceOfPath | src/Traits/UsesFolderConfig.php:20-39 | a name and its path form have the same namespace form, so the older trait's folder and namespace of one role agree |
| Names.MatchLastSlash | src/Traits/UsesStubFunctionsTrait.php:61-65 | the pattern matches iff the subject holds a `/`; the second group holds no `/`; no group spans a line break; on a one-line subject, group 1 + `/` + group 2 gives back the subject |
| Names.SplitModelNameToParts | src/Traits/UsesStubFunctionsTrait.php:59-70 | the base name holds no `/` or `\`; both suffixes are null together, exactly when the name has no separator, and then the base name is the whole name; otherwise the path suffix starts with `/` and the namespace suffix is its namespace form |
| Names.SplitReconstructs | src/Traits/UsesStubFunctionsTrait.php:61-69 | for a one-line name with a separator, path suffix + `/` + base name == `/` + the name in path form |
| Names.SuffixesAgree | src/Traits/UsesStubFunctionsTrait.php:68-69 | the namespace suffix and the path suffix are each other's namespace and path forms |
| Names.TrailingSeparatorGivesEmptyBase | src/Traits/UsesStubFunctionsTrait.php:67-69 | a one-line name ending in `\` (such as `Foo\`) is accepted: its base name is empty and its path suffix is `/` + the rest of the name in path form |
| Names.SplitPathText | src/Traits/UsesStubFunctionsTrait.php:59-70 | for a one-line name, nested or not, path suffix (or nothing) + `/` + base name == `/` + the name in path form |
| Names.SetModelName | src/Traits/UsesStubFunctionsTrait.php:42-53 | a missing argument stops the command (no parts); otherwise the stored name is the argument in namespace form, free of `/`, and the parts are that name's split |
| Config.DefaultConfigShape | config/repository.php:14-37 | no model is registered; the folder table has exactly the five roles, each mapped to `ucfirst` of its key; there is no getters or filters key, so those roles take the fallback |
| Config.DefaultLeafIsUcfirst | config/repository.php:31-37 | under the defaults every role's folder leaf is `ucfirst` of the role |
| FolderConfig.NamespaceFor | src/Traits/UsesFolderConfigTrait.php:73-79 | the computed namespace starts with `App\`, holds no `/`, and the rest has the same path form as the configured leaf or the `ucfirst` fallback |
| FolderConfig.NamespaceWithoutTrailingSlash | src/Traits/UsesFolderConfigTrait.php:73-82 | a non-empty memoised value comes back unchanged; an empty or unset one is computed from the configuration and stored |
| FolderConfig.Namespace | src/Traits/UsesFolderConfigTrait.php:60-63 | the namespace without trailing slash plus `\`, so it ends with `\`; the properties change as that call changes them |
| FolderConfig.NamespaceMemoised | src/Traits/UsesFolderConfigTrait.php:75-81 | after one call the property holds the returned non-empty value, and a second call returns it without changing anything |
| FolderConfig.ColdNamespaceFromConfig | src/Traits/UsesFolderConfigTrait.php:73-79 | on a fresh object the namespace is `App\` + the namespace form of the configured leaf or fallback, with no `/` |
| FolderConfig.GetFolderAsWritten | src/Traits/UsesFolderConfigTrait.php:44-51 | as written: an unset folder property raises the uninitialised-property error, and a set one yields `app_path` of the property; the configuration is never read |
| FolderConfig.GetFolderIgnoresConfig | src/Traits/UsesFolderConfigTrait.php:44-51 | on a fresh object the as-written lookup fails; with the property set to `""` it yields `app_path("")` while the configuration names `Queries` |
| FolderConfig.FolderPath | src/Traits/UsesFolderConfigTrait.php:44-51 | the corrected `getFolder` (`FolderConfig.Folder`) is `app_path` of this leaf: the corrected folder leaf holds no `\`, names the same place as the namespace, and follows the configured value or the `ucfirst` fallback |
| FolderConfig.ClassFileShape | src/Traits/UsesFolderConfigTrait.php:92-97 | the checked file is the folder + `/` + the class in path form + `.php`; the class's namespace form checks the same file |
| LegacyFolderConfig.RoleKeysDistinct | src/Traits/UsesFolderConfig.php:41-89 | each per-role getter passes its own key, and every key's `ucfirst` is its default folder |
| LegacyFolderConfig.FolderFor | src/Traits/UsesFolderConfig.php:22-24 | the computed folder is the configured leaf (or `ucfirst` fallback) with every `\` turned into `/` and every other character kept |
| LegacyFolderConfig.NamespaceFor | src/Traits/UsesFolderConfig.php:32-35 | the computed namespace starts with `App\`, ends with `\`, holds no `/`, and between these is the folder in namespace form |
| LegacyFolderConfig.FolderAndNamespaceAgree | src/Traits/UsesFolderConfig.php:20-38 | folder and namespace of one role differ only by separator and the `App\...\` wrapping |
| LegacyFolderConfig.GetFolder | src/Traits/UsesFolderConfig.php:20-28 | a non-empty memoised folder comes back unchanged; otherwise it is computed from the configuration and stored |
| LegacyFolderConfig.GetNamespace | src/Traits/UsesFolderConfig.php:30-39 | a non-empty memoised namespace comes back unchanged; otherwise it is computed from the configuration and stored |
| LegacyFolderConfig.LookupsMemoised | src/Traits/UsesFolderConfig.php:20-39 | a repeated folder or namespace lookup returns the first value and leaves the properties as the first call left them |
| LegacyFolderConfig.RoleFolder | src/Traits/UsesFolderConfig.php:41-64 | a role's folder getter computes from its own key and touches no other property |
| LegacyFolderConfig.RoleNamespace | src/Traits/UsesFolderConfig.php:66-89 | a role's namespace getter computes `App\` + its own leaf + `\` and touches no other property |
| LegacyFolderConfig.PlainLeafLookups | src/Traits/UsesFolderConfig.php:20-39 | a configured leaf without separators is the folder verbatim and sits verbatim inside `App\...\` |
| LegacyFolderConfig.DefaultRoleNamespace | src/Traits/UsesFolderConfig.php:20-39 | under the defaults a role's namespace is `App\<Leaf>\` and its folder is `<Leaf>` |
| LegacyFolderConfig.DefaultEventsNamespace | src/Traits/UsesFolderConfig.php:81-84 | under the defaults `getEventsNamespace` is `App\Events\` |
| ModelEvents.StagesDistinct | src/Traits/HasModelEvents.php:9-12 | the two available stages are different |
| ModelEvents.GetModelName | src/Traits/HasModelEvents.php:32-39 | a name passes through; an instance's class without `App\Models\` is its own name |
| ModelEvents.ModelNameOfInstance | src/Traits/HasModelEvents.php:34-36 | an instance of `App\Models\<Short>` is named `<Short>` |
| ModelEvents.SetEventsForModel | src/Traits/HasModelEvents.php:22-30 | both arrays gain exactly the two stage keys; each stage's event and listener are built from the same model name and stage; other keys are kept |
| ModelEvents.SetEventsKeys | src/Traits/HasModelEvents.php:26-29 | starting empty or from an earlier call, both arrays are keyed by exactly the two stages |
| ModelEvents.EventClassInjective | src/Traits/HasModelEvents.php:41-44 | about `ModelEvents.EventClass`: two event class names are equal iff they have the same model and the same stage |
| ModelEvents.ListenerClassInjective | src/Traits/HasModelEvents.php:46-49 | about `ModelEvents.ListenerClass`: two listener class names are equal iff they have the same model and the same stage |
| EventWiring.EventClassesDistinct | src/Providers/EventServiceProvider.php:52-58 | a model's two event classes are different keys |
| EventWiring.RegisterListener | src/Providers/EventServiceProvider.php:48-59 | each stage's event maps to the one-element list of its listener; only the two event keys are added and other entries are kept; at most two entries are added |
| EventWiring.RegisterListenersWiresEveryModel | src/Providers/EventServiceProvider.php:36-41 | about `EventWiring.RegisterListeners`: after registering the configured models, each model's stage event maps to `[its listener]` |
| EventWiring.RegisterListenersKeys | src/Providers/EventServiceProvider.php:36-41 | the keys of `$listen` are the earlier keys plus the event classes of the configured models |
| EventWiring.RegisterListenersSingletons | src/Providers/EventServiceProvider.php:55-57 | every value of `$listen` stays a one-element list |
| EventWiring.RegisterListenersBound | src/Providers/EventServiceProvider.php:38-58 | at most two entries are added per configured model |
| EventWiring.LaterModelsPreserve | src/Providers/EventServiceProvider.php:38-40 | a key that no later model's events hit keeps its value |
| EventWiring.RegisterListenerIsolated | src/Providers/EventServiceProvider.php:52-58 | registering one model leaves another model's entries as they were |
| EventWiring.DefaultRegistersNothing | config/repository.php:14-17 | with the shipped configuration `$listen` stays empty |
| Bindings.RegisterBinding | src/Providers/RepositoryServiceProvider.php:83-97 | a binding is made iff the model, repository and contract classes all exist, and it binds `<contracts ns><M>RepositoryContract` to `<repositories ns><M>Repository` |
| Bindings.BindModels | src/Providers/RepositoryServiceProvider.php:71-73 | there is at most one binding per configured model |
| Bindings.RegisterBindings | src/Providers/RepositoryServiceProvider.php:67-74 | the base contract binding comes first, followed by at most one binding per configured model |
| Bindings.BindModelsExactly | src/Providers/RepositoryServiceProvider.php:67-97 | the per-model bindings are exactly the bindable models' pairs, in configuration order |
| Bindings.BindableModelsChecked | src/Providers/RepositoryServiceProvider.php:85-91 | a model is among the bound ones iff it is configured and passes all three existence checks |
| LegacyBindings.RegisterBindings | src/RepositoryServiceProvider.php:52-62 | the base interface binding comes first, then one unconditional binding per configured model, in order |
| LegacyBindings.LegacyBindingEmbedsModel | src/RepositoryServiceProvider.php:58-59 | both names embed the model string verbatim after the fixed prefixes |
| Stubs.SkipsLoneBraces | src/Console/Commands/MakeRepositoryCommand.php:64-68 | text whose every `{` is followed by another character passes through a `{{...}}` replacement unchanged, whatever follows it |
| Stubs.OtherTokenPassesThrough | src/Console/Commands/MakeRepositoryCommand.php:64-68 | a placeholder with a different name passes through a replacement unchanged |
| Stubs.ReplaceIsFill | src/Console/Commands/MakeRepositoryCommand.php:64-68 | replacing `{{name}}` in a stub's text is filling the holes named `name` in its template, with no condition on the inserted value |
| Stubs.FillKeepsWellFormed | src/Console/Commands/MakeGetterCommand.php:62-72 | filling a hole with a value that starts no placeholder keeps the template well formed, so a second replacement can follow |
| Stubs.ClassStubWellFormed | src/Console/Commands/MakeGetterCommand.php:62-72 | a class stub with a `{ }` body and a `{{modelName}}` placeholder is a well-formed template |
| StubFunctions.TargetFileFollowsName | src/Traits/UsesStubFunctionsTrait.php:80 | about `StubFunctions.TargetFile`: for a one-line name, nested or not, the class file is target + `/` + the name in path form + stub + `.php` |
| StubFunctions.MakeClass | src/Traits/UsesStubFunctionsTrait.php:78-88 | existing files are never overwritten; only the target file can be added; an existing target is reported and nothing is created; a new one gets the converted stub and its folder; one line is printed, and it is info iff the file was new |
| StubFunctions.MakeClassIdempotent | src/Traits/UsesStubFunctionsTrait.php:82-87 | a second `makeClass` for the same class changes no file and no folder |
| StubFunctions.ConvertStubPasses | src/Console/Commands/MakeGetterCommand.php:60-73 | about `StubFunctions.ConvertStub`: for any stub whose literal text starts no placeholder (class-body braces allowed) and any base name, the first pass fills exactly the `{{modelName}}` holes and the second pass runs over that result |
| StubFunctions.ConvertStubFillsTemplate | src/Console/Commands/MakeGetterCommand.php:60-73 | read as a template, the two-token replacement fills `{{modelName}}` and the namespace placeholder and keeps all other text and placeholders, whenever the base name itself starts no placeholder |
| StubFunctions.ConvertStubRescansBaseName | src/Console/Commands/MakeGetterCommand.php:62-72 | a base name that is itself the namespace placeholder is replaced by the namespace, since the second pass scans the first pass's output |
| StubFunctions.ConvertStubKeepsPlainText | src/Console/Commands/MakeGetterCommand.php:62-72 | a stub holding neither of the two placeholders is written verbatim, whatever the base name and namespace |
| StubFunctions.WarnIfModelNotExists | src/Traits/UsesStubFunctionsTrait.php:156-163 | no file changes; one error notice iff the model's class file is absent |
| GetterCommand.Handle | src/Console/Commands/MakeGetterCommand.php:34-51 | a missing argument prints the error and touches no file; otherwise the getter file is added if absent, with the converted stub, and every other file is kept; the first line reports the getter and a second line appears iff the model file is missing |
| GetterCommand.HandleIdempotent | src/Console/Commands/MakeGetterCommand.php:46-51 | running the command twice changes no file or folder the first run did not |
| GetterCommand.GetterFileFollowsArgument | src/Console/Commands/MakeGetterCommand.php:48 | `Foo/Bar` and `Foo\Bar` both give `<getters folder>/Foo/BarGetter.php` |
| GetterCommand.GetterContentFillsTemplate | src/Console/Commands/MakeGetterCommand.php:60-73 | `{{modelName}}` becomes the base name and `{{gettersNamespace}}` becomes the getters namespace plus the namespace suffix, for every stub whose literal text starts no placeholder |
| FilterCommand.Handle | src/Console/Commands/MakeFilterCommand.php:34-52 | a missing argument prints one error and touches no file; otherwise the filter file is added if absent and the two notices follow the report line |
| FilterCommand.HandleIdempotent | src/Console/Commands/MakeFilterCommand.php:47-52 | running the command twice changes no file or folder the first run did not |
| FilterCommand.FilterContentFillsTemplate | src/Console/Commands/MakeFilterCommand.php:61-74 | `{{modelName}}` becomes the base name and `{{filtersNamespace}}` becomes the filters namespace plus the namespace suffix, for every stub whose literal text starts no placeholder |
| RepositoryCommand.Handle | src/Console/Commands/MakeRepositoryCommand.php:33-74 | one `RepositoryCommand.MakeClass` write per class: exactly six writes, in the order interface, repository, two events, two listeners; each goes to `app_path` of its folder and class name for `ucfirst` of the argument, and holds its stub rendered for that name |
| RepositoryCommand.PutAllIsOverlay | src/Console/Commands/MakeRepositoryCommand.php:70-73 | the writes overlay whatever files were there |
| RepositoryCommand.FolderOf | src/Console/Commands/MakeRepositoryCommand.php:70-73 | the folder `file_put_contents` needs: the path up to its last `/`, with no `/` after it |
| RepositoryCommand.Run | src/Console/Commands/MakeRepositoryCommand.php:70-73 | the command finishes iff every write's folder exists, and then the files are the writes overlaid in order; a stopped run names a write whose folder is missing; no file disappears |
| RepositoryCommand.FirstMissing | src/Console/Commands/MakeRepositoryCommand.php:33-40 | the first write, in `handle()` order, whose folder is missing |
| RepositoryCommand.RunStopsAtFirstMissing | src/Console/Commands/MakeRepositoryCommand.php:33-40 | a stopped run has done exactly the writes before the first missing folder and fails on that write |
| RepositoryCommand.HandleFinishesIffFoldersExist | src/Console/Commands/MakeRepositoryCommand.php:33-108 | the command finishes iff the folder of each of the six classes exists |
| RepositoryCommand.MissingInterfacesFolderStops | src/Console/Commands/MakeRepositoryCommand.php:79-82 | without the interface's folder the first write fails and no file is written |
| RepositoryCommand.RunMakingFolders | config/repository.php:24-27 | with folders made on demand every write is done and the made folders join the existing ones |
| RepositoryCommand.MakingFoldersWritesEveryClass | config/repository.php:24-27 | with folders made on demand each of the six classes holds its rendered stub, whatever folders existed |
| RepositoryCommand.HandleIdempotent | src/Console/Commands/MakeRepositoryCommand.php:33-40 | running the command twice leaves the same files, and ends the same way, as running it once, also when the first run stopped at a missing folder |
| RepositoryCommand.LastWriteWins | src/Console/Commands/MakeRepositoryCommand.php:70-73 | a write that no later write shadows decides the file's contents, even over an existing file |
| RepositoryCommand.RelativePathsDistinct | src/Console/Commands/MakeRepositoryCommand.php:71 | the six relative paths differ from one another |
| RepositoryCommand.HandleWritesEveryClass | src/Console/Commands/MakeRepositoryCommand.php:62-74 | with an injective `app_path` and the six classes' folders present, the command finishes and each class holds its rendered stub |
| RepositoryCommand.HandleKeepsOtherFiles | src/Console/Commands/MakeRepositoryCommand.php:70-73 | files outside the six class paths keep their contents, whether the command finishes or stops |
| RepositoryCommand.RenderFillsTemplate | src/Console/Commands/MakeRepositoryCommand.php:64-68 | about `RepositoryCommand.Render`: for every stub whose literal text starts no placeholder (class-body braces allowed), every `{{modelName}}` becomes the `ucfirst` name; other text and placeholders are kept |
| Attributes.AttributeOf | src/Traits/GetterableTrait.php:85 | the result is the longest prefix of the spec that holds neither `:` nor `.` |
| Attributes.AttributeOfPlain | src/Traits/GetterableTrait.php:85 | a spec free of `:` and `.` names itself |
| Attributes.ValidAttributes | src/Traits/GetterableTrait.php:82-87 | one attribute per spec, in order, each being the spec's attribute; `EloquentAttributeFilterTrait.php:46-51` defines the same selection |
| Attributes.ValidAttributesIdempotent | src/Traits/GetterableTrait.php:84-86 | selecting attributes twice is the same as once |
| Attributes.ValidRelations | src/Traits/GetterableTrait.php:67-74 | a spec is kept iff its part before any `:` is a relation or contains `.`; the result is a subsequence of the input; `EloquentAttributeFilterTrait.php:37-44` defines the same selection |
| Attributes.DottedSpecIsRelation | src/Traits/GetterableTrait.php:70-72 | a spec with a `.` before its column list is always loaded as a relation |
| Attributes.PlainSpecRelation | src/Traits/GetterableTrait.php:70-72 | a spec without `.` or `:` is a relation iff the model says it is |
| Attributes.WithAttributes | src/Traits/GetterableTrait.php:17-35 | null is a type error, because the non-nullable `array` property cannot hold it; the empty list gives the full `toArray()`, and only that case does; otherwise the valid relations are loaded and exactly the valid attributes are returned, with their values read after loading; `EloquentAttributeFilterTrait.php:16-35` has the same null, empty and selection cases |
| Attributes.Only | src/Traits/GetterableTrait.php:35 | `only($keys)`: one entry per distinct key, each asked key present, each holding the model's value, in the order of the keys' first occurrence |
| Attributes.DottedSpecSelectsRelation | src/Traits/GetterableTrait.php:30-34 | asking for `author.name` loads `author.name` and returns just the `author` attribute |
| Requests.PerPageDefault | src/Getters/EloquentGetter.php:95-100 | about `Requests.PerPage`: the page size is `per_page`, or 20 when absent; `EloquentFilter.php:80-85` has the same default |
| Requests.FilterMethods | src/Getters/EloquentGetter.php:122-128 | a method is a filter method iff the concrete class has it and the base class does not; declaration order is kept; `EloquentFilter.php:103-109` uses the same difference |
| Requests.OnlyKeys | src/Filters/EloquentFilter.php:94-95 | an entry is kept iff its key is listed; the array's order is kept and its keys stay distinct |
| GetterQuery.GetFilters | src/Getters/EloquentGetter.php:108-115 | the applied filters have distinct keys, and every key is one of the class's own methods |
| GetterQuery.MapWithKeysSound | src/Getters/EloquentGetter.php:110-113 | every renamed entry comes from a request entry with the same value |
| GetterQuery.MapWithKeysComplete | src/Getters/EloquentGetter.php:110-113 | a request entry that no later key shadows is present, under its new name, with its value |
| GetterQuery.GetFiltersExact | src/Getters/EloquentGetter.php:108-115 | each applied (method, value) comes from a request key `k` with `camel(k) . 'Filter'` == method; each unshadowed request key whose method is a filter method is applied with its value |
| GetterQuery.FilterCalls | src/Getters/EloquentGetter.php:52-59 | `each` calls exactly the (method, value) entries `getFilters()` returns, each method once; with `GetterQuery.GetFiltersExact` this means every unshadowed request filter naming one of the class's own filter methods is called with its value, and nothing else is called |
| GetterQuery.GetSorterMethod | src/Getters/EloquentGetter.php:136-144 | the sorter `camel(sort_by) . 'Sorter'` is called iff it exists, and its builder is the result iff it returns one |
| GetterQuery.GetSorterColumn | src/Getters/EloquentGetter.php:151-156 | the column is `sort_by` (default `id`) iff the table has that column |
| GetterQuery.OrderSkipped | src/Getters/EloquentGetter.php:66-78 | with no sorter builder and no truthy existing column, no `orderBy` is added |
| GetterQuery.OrderByColumnDefaults | src/Getters/EloquentGetter.php:66-78 | with no sorter, an existing column orders by `sort_by` (default `id`) and `sort_order` (default `asc`) |
| GetterQuery.SorterRunsTwice | src/Getters/EloquentGetter.php:68-72 | a sorter method that returns the builder runs twice, and its builder is what `orderBy` receives |
| GetterQuery.Order | src/Getters/EloquentGetter.php:66-78 | the only method called is the requested sorter, and only when it exists; an `orderBy` is added iff the sorter exists and returns the builder, or `sort_by` (default `id`) is a truthy existing column; every `orderBy` has direction `sort_order` (default `asc`) and orders by the sorter's builder when it returns one, else by the column `sort_by` (default `id`) |
| GetterQuery.NullSorterOrdersByColumn | src/Getters/EloquentGetter.php:68-74 | a sorter that exists but returns null runs twice, and a truthy existing column is then ordered by, ascending unless `sort_order` says otherwise |
| GetterQuery.OrderShape | src/Getters/EloquentGetter.php:66-78 | the calls are sorter calls followed by at most one `orderBy`, three calls at most |
| FilterQuery.GetFilters | src/Filters/EloquentFilter.php:92-96 | an entry is applied iff its key, unrenamed, is one of the class's own methods; the request's order is kept |
| FilterQuery.ApplyCalls | src/Filters/EloquentFilter.php:39-48 | a (method, value) is called iff it is a request filter entry whose key is one of the class's own methods; calls keep the request's order, and distinct request keys give each method once |
| FilterQuery.OrderDefaults | src/Filters/EloquentFilter.php:65-73 | about `FilterQuery.Order`: one ordering is always added, by `sort_by` (default `name`) and `sort_order` (default `desc`) |
| Repository.Columns | src/Repositories/AbstractEloquentRepository.php:81-84 | no columns gives `['*']`; any other list is returned as it is; `EloquentRepository.php:46-49` has the same default |
| Repository.ColumnsIdempotent | src/Repositories/AbstractEloquentRepository.php:81-84 | applying the default twice is the same as once |
| Repository.Create | src/Repositories/AbstractEloquentRepository.php:179-192 | a vetoed `IsCreating` returns false with the store unchanged and only `IsCreating` fired; an approved one always gets the ORM's instance back, stores the attributes only if `save()` succeeded, and fires `WasCreated` either way |
| Repository.CreateProtocol | src/Repositories/AbstractEloquentRepository.php:181-189 | the store changes only after an approved `IsCreating` and a successful save; both events fire iff both are configured and `IsCreating` is not vetoed, whether or not the save succeeded; an instance reported as stored holds the attributes in the store |
| Repository.Delete | src/Repositories/AbstractEloquentRepository.php:201-218 | an unknown id is an error (a call on null); the answer is false iff `IsDeleting` is vetoed, and then nothing changes; the answer is true iff the entity is removed, and then `IsDeleting` and `WasDeleted` fire in that order |
| Repository.Update | src/Repositories/AbstractEloquentRepository.php:330-347 | an unknown id is an error; a veto of `IsUpdating`, built from the stored entity and the attributes, answers false and changes nothing; otherwise `WasUpdated` fires and the answer is `save()`'s, the given attributes being overwritten only when it saved |
| Repository.UpdateVetoSeesEntity | src/Repositories/AbstractEloquentRepository.php:335 | a listener can refuse the update of one entity and allow the same update of another, because the event carries the stored entity |
| Repository.UpdateFrame | src/Repositories/AbstractEloquentRepository.php:340 | an approved update keeps the ids, every other entity, and the attributes it does not name |
| Repository.DeleteWhereAsWritten | src/Repositories/AbstractEloquentRepository.php:229-240 | as written, every answer that is not an error is true, over the entities `each` yields |
| Repository.DeleteWhere | src/Repositories/AbstractEloquentRepository.php:229-240 | corrected: no entity is added; true means every entity `each` yielded is gone |
| Repository.DeleteWhereReportsSurvivors | src/Repositories/AbstractEloquentRepository.php:229-240 | the corrected answer is true iff no entity `each` yielded survives |
| Repository.DeleteWhereAgreesWithoutVeto | src/Repositories/AbstractEloquentRepository.php:229-240 | when nothing is vetoed, both versions behave the same |
| Repository.DeleteWhereAlwaysTrue | src/Repositories/AbstractEloquentRepository.php:231-239 | one vetoed match: the entity stays, the as-written answer is true and the corrected answer is false |
| Repository.FirstLastMirror | src/Repositories/AbstractEloquentRepository.php:146-170 | about `Repository.First` and `Repository.Last`: `first` and `last` each read one row, from opposite ends of `created_at`, with the same column selection |
| Repository.Project | src/Repositories/AbstractEloquentRepository.php:251-278 | the column selection of a read: `*` keeps the entity whole; otherwise exactly the entity's attributes that are named, with their values |
| Repository.Find | src/Repositories/AbstractEloquentRepository.php:251-257 | null iff the id is unknown; otherwise the entity restricted to `columns(...)`; `EloquentRepository.php:93-99` behaves the same way |
| Repository.FindBy | src/Repositories/AbstractEloquentRepository.php:269-278 | for a `null` value (the default) exactly the entities without the field, as `whereNull`; otherwise exactly those whose field equals the value; each restricted to `columns(...)`; `EloquentRepository.php:110-119` behaves the same way |
| Repository.FindByPartitions | src/Repositories/AbstractEloquentRepository.php:269-278 | each entity is found by exactly one value: `null` when it lacks the field, its own value otherwise |
| Repository.NoColumnsSelectsAll | src/Repositories/AbstractEloquentRepository.php:251-278 | asking for no columns returns whole entities |
| LegacyRepository.Create | src/Repositories/EloquentRepository.php:73-82 | `IsCreating` fires, the instance is built and stored if `save()` succeeds, then `WasCreated` fires; no response is consulted, so the answer is never a refusal |
| LegacyRepository.VetoOnlyInNewerRepository | src/Repositories/EloquentRepository.php:75-79 | where the newer repository refuses a vetoed create, the older one stores the entity anyway |

## Left out

- File-system calls, stub reading and console output are not modelled as I/O. The file system is a map plus a set of directories, stub text is a parameter, and output is a list of lines.
- These framework calls are parameters of the model: `config()`, `app_path`, `Str::camel`, `isRelation`, `hasColumn`, `method_exists`, `get_class_methods` and the event dispatcher. The dispatcher is reduced to "the list of responses; empty means veto".
- The older `UsesStubFunctions` trait is not part of this model, and neither are `getFiltersFolder`, `getFiltersNamespace` and `warnIfModelNotConfigured`, which `make:filter` calls. Their values and printed lines are parameters of `FilterCommand.Handle`.
- `repositoryExists` and `contractExists` are not part of this model. Together with `modelExists`, they are one presence predicate.
- `HasModelEventsTrait` is not part of this model. `AbstractEloquentRepository` uses it for the `IsDeleting`, `IsUpdating`, `WasDeleted` and `WasUpdated` stages, so the events map is a parameter.
- The ORM is not modelled. `where`, `orWhere`, `orderBy`, `with`, `withTrashed`, `onlyTrashed`, `paginate`, `count`, `all`, `builder` and `model` are pass-throughs. So are `GetterableTrait::filter`/`order`, `EloquentGetter::apply`/`get` and `EloquentFilter::get`.
- `ucfirst` is modelled for ASCII letters only.
- `exit()` after the missing-argument error is modelled as the command stopping.
- Names.SetModelName: `hasArgument('model')` asks whether the command declares a `model` argument. All three signatures declare `{model}` as required, and the console rejects a missing argument before `handle()` runs. So the `None` branch of Names.SetModelName, GetterCommand.Handle and FilterCommand.Handle (the missing-argument error) cannot be reached as written; it is modelled only for completeness.
- Names.MatchLastSlash: for a subject with line breaks, the contract states only that the groups come from the subject and hold no line break. It does not say which line they come from.
- GetterQuery.GetSorterMethod: the sorter's effect on the builder is not modelled, only that it is called and whether it returns the builder. The sorter's declared return type is `?Builder`, so one returning anything else raises a `TypeError`; `returnsBuilder == false` stands for both that and `null`.
- Repository.Delete: `Model::delete()` is taken to return true for a stored entity.
- Repository.Create: the id the ORM assigns and the answer of the instance's `save()` are parameters; id allocation and the save itself are not modelled. The same holds for LegacyRepository.Create.
- Repository.DeleteWhere: `each` pages by offset in chunks of 1000 over a result set it is deleting from, so beyond the first chunk some matching entities are never yielded. `matched` is the yielded sequence, not every entity the query matches; the same holds for Repository.DeleteWhereAsWritten and Repository.DeleteWhereReportsSurvivors.
- Repository.FindBy: a non-null value is compared by exact string equality. The database's collation (for MySQL's default, case-insensitive) and type coercion are not modelled.
- Requests.PerPageDefault: request parameters are strings, so the default page size is `"20"` rather than the integer 20.
- Attributes.WithAttributes: the older trait re-reads the entity with `find($this->id)`, which could return null. Both traits are modelled as reading the entity with its relations loaded.
- StubFunctions.WarnIfModelNotExists: uses the corrected folder (see Findings) and the cold-cache value of the models namespace.
- GetterCommand.Handle: writes into the corrected getters folder (see Findings). As written, the first `getGettersFolder()` call raises an error.
- FilterCommand.Handle: `make:filter` uses the older `UsesStubFunctions` trait, which is not part of this model. Its `setModelName`, `splitModelNameToParts` and `makeClass` are taken to behave as the newer trait's: resolve the name, skip an existing file, make the folder, write and report. The missing-argument message is the newer trait's too.
- FilterCommand.HandleIdempotent: rests on the same assumption about the older trait's `makeClass`.
- StubFunctions.MakeClass: `dirs` gains only the class's own folder. The recursive `makeDirectory` also makes missing ancestor folders, and `File::exists` is also true for a directory at the file's path; neither is represented.
- RepositoryCommand.Run: the error ends the command, so what Laravel prints for it is not modelled. A path with no `/` is taken to live in folder "".

## Findings

| source | as written | input that shows it | evidently intended | confidence | as-written member | corrected member |
|---|---|---|---|---|---|---|
| src/Repositories/AbstractEloquentRepository.php:231-239 | `use ($result)` captures by value, so the closure's assignment never reaches the returned `$result` and `deleteWhere` always returns true | one matched entity whose `IsDeleting` listeners give no response: the entity stays, yet the answer is true (`Repository.DeleteWhereAlwaysTrue`) | true iff every entity `each` yields was deleted (`use (&$result)`) | high; not executed | Repository.DeleteWhereAsWritten | Repository.DeleteWhere |
| src/Traits/UsesFolderConfigTrait.php:44-51 | `getFolder` reads only its own typed property. Unset, the read raises an error; set to `""`, it yields `app_path("")`. The `repository.folders` configuration is never consulted | a fresh `make:getter` run: `gettersFolder` is unset, so `getGettersFolder()` fails (`FolderConfig.GetFolderIgnoresConfig`) | `app_path` of the configured folder or the `ucfirst` fallback in path form, as `getNamespaceWithoutTrailingSlash` and the older `UsesFolderConfig::getFolder` compute it | high; not executed | FolderConfig.GetFolderAsWritten | FolderConfig.FolderPath |
| src/Console/Commands/MakeRepositoryCommand.php:62-74 | `makeClass` calls `file_put_contents` without making the target folder, so a write into a missing `app/Interfaces`, `app/Events` or `app/Listeners` raises an error and stops the command, although the package's configuration says folders are created automatically | an application without `app/Interfaces`: the first write fails and no class is written (`RepositoryCommand.MissingInterfacesFolderStops`) | every folder made on demand before its write, as the configuration file (config/repository.php:24-25) promises and as the newer `makeClass` does | medium; not executed | RepositoryCommand.Run | RepositoryCommand.RunMakingFolders |

=== FILE: attributes.dfy ===
/**
 * Attribute selection (`GetterableTrait`, and its older duplicate
 * `EloquentAttributeFilterTrait`): specs such as `name`, `author.name` or
 * `comments:id,body` are split into the relations to load and the
 * top-level attributes to return.
 */
module Attributes {
  import opened Php

  /** `explode(':', $spec)[0]`: the spec without its column list. */
  function WithoutColumns(spec: string): string {
    BeforeFirst(spec, ':')
  }

  /**
   * `explode('.', explode(':', $spec)[0])[0]`: the longest prefix of the
   * spec that holds neither `:` nor `.`.
   */
  function AttributeOf(spec: string): (r: string)
    ensures ':' !in r && '.' !in r
    ensures r <= spec
    ensures |r| < |spec| ==> spec[|r|] == ':' || spec[|r|] == '.'
  {
    var w := WithoutColumns(spec);
    var r := BeforeFirst(w, '.');
    assert forall c :: c in r ==> c in w by {
      forall c | c in r ensures c in w {
        var i :| 0 <= i < |r| && r[i] == c;
        assert w[i] == c;
      }
    }
    r
  }

  /** A spec free of `:` and `.` names itself. */
  lemma AttributeOfPlain(spec: string)
    requires ':' !in spec && '.' !in spec
    ensures AttributeOf(spec) == spec
  {
    assert forall i :: 0 <= i < |spec| ==> spec[i] != ':' && spec[i] != '.';
  }

  /** `getValidAttributes()`: one attribute per spec, in order. */
  function ValidAttributes(specs: seq<string>): (r: seq<string>)
    ensures |r| == |specs|
    ensures forall i :: 0 <= i < |r| ==> r[i] == AttributeOf(specs[i])
  {
    seq(|specs|, i requires 0 <= i < |specs| => AttributeOf(specs[i]))
  }

  /** Selecting attributes twice selects the same ones. */
  lemma ValidAttributesIdempotent(specs: seq<string>)
    ensures ValidAttributes(ValidAttributes(specs)) == ValidAttributes(specs)
  {
    var once := ValidAttributes(specs);
    forall i | 0 <= i < |once|
      ensures AttributeOf(once[i]) == once[i]
    {
      AttributeOfPlain(once[i]);
    }
  }

  /** The relation test of `getValidRelations`: a relation name, or a dotted path, before any `:`. */
  predicate IsRelationSpec(isRelation: string -> bool, spec: string) {
    var w := WithoutColumns(spec);
    isRelation(w) || Contains(w, ".")
  }

  /** `getValidRelations()`: the specs that pass the relation test, in order. */
  function ValidRelations(specs: seq<string>, isRelation: string -> bool): (r: seq<string>)
    ensures forall s :: s in r <==> s in specs && IsRelationSpec(isRelation, s)
    ensures IsSubsequence(r, specs)
  {
    FilterIsSubsequence(specs, s => IsRelationSpec(isRelation, s));
    Filter(specs, s => IsRelationSpec(isRelation, s))
  }

  /** A spec with a `.` before its column list is always loaded as a relation. */
  lemma DottedSpecIsRelation(isRelation: string -> bool, spec: string)
    requires '.' in WithoutColumns(spec)
    ensures IsRelationSpec(isRelation, spec)
  {
    ContainsChar(WithoutColumns(spec), '.');
    assert "." == ['.'];
  }

  /** A spec with no `.` or `:` is a relation exactly when the model says it is one. */
  lemma PlainSpecRelation(isRelation: string -> bool, spec: string)
    requires ':' !in spec && '.' !in spec
    ensures IsRelationSpec(isRelation, spec) <==> isRelation(spec)
  {
    BeforeFirstWithout(spec, ':');
    ContainsChar(spec, '.');
    assert "." == ['.'];
  }

  /**
   * `$model->only($keys)`: one entry per distinct key, at its first
   * position, holding the model's value for that key.
   */
  function Only<V>(keys: seq<string>, get: string -> V): (r: seq<(string, V)>)
    ensures forall i, j :: 0 <= i < j < |r| ==> r[i].0 != r[j].0
    ensures forall k :: k in keys <==> HasKey(r, k)
    ensures forall i :: 0 <= i < |r| ==> r[i].1 == get(r[i].0)
    ensures InFirstOccurrenceOrder(r, keys)
    decreases |keys|
  {
    if |keys| == 0 then []
    else
      var k := keys[|keys| - 1];
      var prefix := keys[..|keys| - 1];
      var front := Only(prefix, get);
      assert keys == prefix + [k];
      KeysOfEntries(front, prefix);
      OrderSurvivesAppend(front, prefix, k, get(k));
      if k in prefix then front
      else
        HasKeyAppend(front, k, get(k));
        front + [(k, get(k))]
  }

  /** Entries whose keys are exactly those of `keys` hold only keys of `keys`. */
  lemma KeysOfEntries<V>(r: seq<(string, V)>, keys: seq<string>)
    requires forall k :: k in keys <==> HasKey(r, k)
    ensures forall i :: 0 <= i < |r| ==> r[i].0 in keys
  {
    forall i | 0 <= i < |r| ensures r[i].0 in keys {
      assert HasKey(r, r[i].0);
    }
  }

  /** Appending an entry adds exactly its key. */
  lemma HasKeyAppend<V>(r: seq<(string, V)>, k: string, v: V)
    ensures forall x :: HasKey(r + [(k, v)], x) <==> x == k || HasKey(r, x)
  {
    var r' := r + [(k, v)];
    forall x | HasKey(r, x) ensures HasKey(r', x) {
      var i :| 0 <= i < |r| && r[i].0 == x;
      assert r'[i].0 == x;
    }
    assert r'[|r|].0 == k;
    forall x | HasKey(r', x) ensures x == k || HasKey(r, x) {
      var i :| 0 <= i < |r'| && r'[i].0 == x;
      if i < |r| {
        assert r[i].0 == x;
      }
    }
  }

  /** The position of the first occurrence of `k` in `keys`. */
  function FirstIndex(keys: seq<string>, k: string): (i: nat)
    requires k in keys
    ensures i < |keys| && keys[i] == k && k !in keys[..i]
    decreases |keys|
  {
    if keys[0] == k then 0
    else
      var j := FirstIndex(keys[1..], k);
      assert keys[..j + 1] == [keys[0]] + keys[1..][..j];
      j + 1
  }

  /** The entries' keys appear in the order of their first occurrence in `keys`. */
  predicate InFirstOccurrenceOrder<V>(r: seq<(string, V)>, keys: seq<string>) {
    forall i, j :: 0 <= i < j < |r| && r[i].0 in keys && r[j].0 in keys ==>
      FirstIndex(keys, r[i].0) < FirstIndex(keys, r[j].0)
  }

  /**
   * Entries ordered by their keys' first occurrence in `prefix` stay so
   * ordered after a key is appended, and a new key can join at the end.
   */
  lemma OrderSurvivesAppend<V>(front: seq<(string, V)>, prefix: seq<string>, k: string, v: V)
    requires forall i :: 0 <= i < |front| ==> front[i].0 in prefix
    requires InFirstOccurrenceOrder(front, prefix)
    ensures InFirstOccurrenceOrder(front, prefix + [k])
    ensures k !in prefix ==> InFirstOccurrenceOrder(front + [(k, v)], prefix + [k])
  {
    var keys := prefix + [k];
    forall x | x in prefix
      ensures FirstIndex(keys, x) == FirstIndex(prefix, x)
    {
      FirstIndexExtend(prefix, k, x);
    }
    if k !in prefix {
      var r := front + [(k, v)];
      assert keys[..|prefix|] == prefix;
      FirstIndexUnique(keys, k, |prefix|);
      forall i, j | 0 <= i < j < |r| && r[i].0 in keys && r[j].0 in keys
        ensures FirstIndex(keys, r[i].0) < FirstIndex(keys, r[j].0)
      {
        if j < |front| {
          assert r[i] == front[i] && r[j] == front[j];
        } else {
          assert r[i] == front[i] && r[j].0 == k;
        }
      }
    }
  }

  /** A position holding `k` with no `k` before it is the first occurrence. */
  lemma FirstIndexUnique(keys: seq<string>, k: string, i: int)
    requires 0 <= i < |keys| && keys[i] == k && k !in keys[..i]
    ensures FirstIndex(keys, k) == i
  {
    var j := FirstIndex(keys, k);
    assert keys[j] == k && keys[i] == k;
  }

  /** Appending a key leaves the first occurrence of an earlier key where it was. */
  lemma FirstIndexExtend(prefix: seq<string>, k: string, x: string)
    requires x in prefix
    ensures x in prefix + [k] && FirstIndex(prefix + [k], x) == FirstIndex(prefix, x)
  {
    var i := FirstIndex(prefix, x);
    assert (prefix + [k])[..i] == prefix[..i];
    FirstIndexUnique(prefix + [k], x, i);
  }

  /** Some entry of the PHP array `r` has key `k`. */
  predicate HasKey<V>(r: seq<(string, V)>, k: string) {
    exists i :: 0 <= i < |r| && r[i].0 == k
  }

  /**
   * What `withAttributes` returns, or the `TypeError` PHP raises when null
   * is stored in the non-nullable `array $withAttributes` property.
   */
  datatype Selection<V> =
    | Everything(all: seq<(string, V)>)
    | Subset(relations: seq<string>, entries: seq<(string, V)>)
    | NullNotArray

  /**
   * `withAttributes($attributes)`: null is accepted by the parameter but
   * rejected by the property it is assigned to; an empty list gives
   * `toArray()`; otherwise the valid relations are loaded and `only` the
   * valid attributes are returned, read by `get` with those relations loaded.
   */
  function WithAttributes<V>(attributes: Option<seq<string>>, toArray: seq<(string, V)>,
                             isRelation: string -> bool, get: (seq<string>, string) -> V)
    : (r: Selection<V>)
    ensures attributes.None? <==> r.NullNotArray?
    ensures attributes == Some([]) <==> r == Everything(toArray)
    ensures r.Subset? <==> attributes.Some? && attributes.value != []
    ensures r.Subset? ==>
      && r.relations == ValidRelations(attributes.value, isRelation)
      && (forall k :: k in ValidAttributes(attributes.value) <==> HasKey(r.entries, k))
      && (forall i :: 0 <= i < |r.entries| ==> r.entries[i].1 == get(r.relations, r.entries[i].0))
  {
    match attributes
    case None => NullNotArray
    case Some(specs) =>
      if specs == [] then Everything(toArray)
      else
        var relations := ValidRelations(specs, isRelation);
        Subset(relations, Only(ValidAttributes(specs), k => get(relations, k)))
  }

  /**
   * Asking for a relation's column (`author.name`) loads the relation and
   * returns the relation's attribute (`author`).
   */
  lemma DottedSpecSelectsRelation<V>(spec: string, toArray: seq<(string, V)>,
                                     isRelation: string -> bool, get: (seq<string>, string) -> V)
    requires '.' in WithoutColumns(spec)
    ensures var r := WithAttributes(Some([spec]), toArray, isRelation, get);
      && r.Subset?
      && r.relations == [spec]
      && r.entries == [(AttributeOf(spec), get([spec], AttributeOf(spec)))]
  {
    DottedSpecIsRelation(isRelation, spec);
    var rels := ValidRelations([spec], isRelation);
    assert spec in rels;
    assert rels == [spec];
    var attrs := ValidAttributes([spec]);
    assert attrs == [AttributeOf(spec)];
    var a := AttributeOf(spec);
    var g := k => get(rels, k);
    assert [a][..0] == [];
    assert Only([a], g) == [(a, g(a))];
  }
}

=== FILE: bindings.dfy ===
/**
 * Container bindings from a repository contract (interface) name to its
 * implementation, as the two generations of the repository service
 * provider register them for the configured models.
 */
module Bindings {
  import opened Php
  import opened Config
  import opened LegacyFolderConfig

  /** One `$this->app->bind($abstract, $concrete)` call. */
  datatype Binding = Binding(service: string, implementation: string)

  const BaseContract: string := "Maarsson\\Repository\\Contracts\\EloquentRepositoryContract"
  const BaseRepository: string := "Maarsson\\Repository\\Repositories\\EloquentRepository"

  /**
   * The class-existence checks `registerBinding` makes (`modelExists`,
   * `repositoryExists`, `contractExists`); their bodies are not part of this
   * model, so they are given as a predicate on (kind, class).
   */
  type Presence = (string, string) -> bool

  /** The per-model pair: `<contracts ns><Model>RepositoryContract` to `<repositories ns><Model>Repository`. */
  function ModelBinding(config: RepositoryConfig, model: string): Binding {
    Binding(
      NamespaceFor(config, Contracts.Key()) + model + "RepositoryContract",
      NamespaceFor(config, Repositories.Key()) + model + "Repository")
  }

  /** All three classes of the model are present. */
  predicate Bindable(present: Presence, model: string) {
    present("model", model)
    && present("repository", model + "Repository")
    && present("contract", model + "RepositoryContract")
  }

  /** `registerBinding($model)`: nothing unless all three classes exist. */
  function RegisterBinding(config: RepositoryConfig, present: Presence, model: string): (r: seq<Binding>)
    ensures |r| <= 1
    ensures |r| == 1 <==> Bindable(present, model)
    ensures |r| == 1 ==> r[0] == ModelBinding(config, model)
  {
    if !Bindable(present, model) then [] else [ModelBinding(config, model)]
  }

  /** The bindings of `registerBindings`' models loop, in order. */
  function BindModels(config: RepositoryConfig, present: Presence, models: seq<string>): (r: seq<Binding>)
    ensures |r| <= |models|
    decreases |models|
  {
    if |models| == 0 then []
    else RegisterBinding(config, present, models[0]) + BindModels(config, present, models[1..])
  }

  /** `registerBindings()`: the base contract first, then one attempt per configured model. */
  function RegisterBindings(config: RepositoryConfig, present: Presence): (r: seq<Binding>)
    ensures |r| >= 1 && r[0] == Binding(BaseContract, BaseRepository)
    ensures |r| <= 1 + |config.models|
  {
    [Binding(BaseContract, BaseRepository)] + BindModels(config, present, config.models)
  }

  /** The models that pass the existence checks, in configuration order. */
  function BindableModels(present: Presence, models: seq<string>): seq<string>
    decreases |models|
  {
    if |models| == 0 then []
    else (if Bindable(present, models[0]) then [models[0]] else []) + BindableModels(present, models[1..])
  }

  /**
   * The per-model bindings are exactly the bindable models' pairs, in
   * configuration order: a model is bound if and only if its model,
   * repository and contract classes all exist.
   */
  lemma {:induction false} BindModelsExactly(config: RepositoryConfig, present: Presence, models: seq<string>)
    ensures var r := BindModels(config, present, models);
      var ms := BindableModels(present, models);
      |r| == |ms| && forall i :: 0 <= i < |r| ==> r[i] == ModelBinding(config, ms[i])
    decreases |models|
  {
    if |models| > 0 {
      BindModelsExactly(config, present, models[1..]);
    }
  }

  /** Every bound model passed all three existence checks. */
  lemma {:induction false} BindableModelsChecked(present: Presence, models: seq<string>)
    ensures forall m :: m in BindableModels(present, models) <==> m in models && Bindable(present, m)
    decreases |models|
  {
    if |models| > 0 {
      BindableModelsChecked(present, models[1..]);
      assert forall m :: m in models <==> m == models[0] || m in models[1..];
    }
  }
}

/** The older `RepositoryServiceProvider::registerBindings`. */
module LegacyBindings {
  import opened Bindings

  const BaseInterface: string := "Maarsson\\Repository\\Interfaces\\EloquentRepositoryInterface"
  const LegacyBaseRepository: string := "Maarsson\\Repository\\Repositories\\BaseRepository"

  /** `App\Interfaces\<Model>RepositoryInterface` to `App\Repositories\<Model>Repository`, the model string verbatim. */
  function LegacyModelBinding(model: string): Binding {
    Binding("App\\Interfaces\\" + model + "RepositoryInterface", "App\\Repositories\\" + model + "Repository")
  }

  /** The base interface first, then one unconditional binding per configured model, in order. */
  function RegisterBindings(models: seq<string>): (r: seq<Binding>)
    ensures |r| == 1 + |models|
    ensures r[0] == Binding(BaseInterface, LegacyBaseRepository)
    ensures forall i :: 0 <= i < |models| ==> r[i + 1] == LegacyModelBinding(models[i])
  {
    [Binding(BaseInterface, LegacyBaseRepository)]
      + seq(|models|, i requires 0 <= i < |models| => LegacyModelBinding(models[i]))
  }

  /** The model name is embedded verbatim, between the fixed prefix and suffix, in both names. */
  lemma LegacyBindingEmbedsModel(model: string)
    ensures var b := LegacyModelBinding(model);
      && b.service[15..15 + |model|] == model
      && b.implementation[17..17 + |model|] == model
  {
    var b := LegacyModelBinding(model);
    assert |"App\\Interfaces\\"| == 15;
    assert |"App\\Repositories\\"| == 17;
  }
}

=== FILE: commands.dfy ===
/**
 * `make:getter` (the newer package): resolve the model name, write the
 * getter class unless it exists, then warn about a missing model class.
 */
module GetterCommand {
  import opened Php
  import opened Names
  import opened Stubs
  import opened Config
  import opened FolderConfig
  import opened StubFunctions

  /** `getConvertedStubContent('Getter')`: the base name and the getters namespace with the model's suffix. */
  function GetterContent(stubText: string, parts: ModelParts, config: RepositoryConfig): string {
    ConvertStub(stubText, parts.baseName, "gettersNamespace", NamespaceFor(config, "getters") + SuffixText(parts.namespaceSuffix))
  }

  /** The getter class file for resolved `parts`. */
  function GetterFile(parts: ModelParts, config: RepositoryConfig, appPath: string -> string): string {
    TargetFile(Folder("getters", config, appPath), parts, "Getter")
  }

  /**
   * `handle()`: `setModelName()->makeGetter()->warnIfModelNotExists()`.
   * `getterStub` is the text of the `Getter` stub.
   */
  function Handle(argument: Option<string>, config: RepositoryConfig, fs: FileSystem, getterStub: string, appPath: string -> string)
    : (r: Effect)
    ensures argument.None? ==> r == Effect(fs, [Error(ArgumentMissing)])
    ensures argument.Some? ==>
      var parts := SplitModelNameToParts(ToNamespaceFormat(argument.value));
      var file := GetterFile(parts, config, appPath);
      && r.fs.files.Keys == fs.files.Keys + {file}
      && (forall p :: p in fs.files ==> r.fs.files[p] == fs.files[p])
      && (file !in fs.files ==> r.fs.files[file] == GetterContent(getterStub, parts, config))
      && 1 <= |r.out| <= 2
      && (r.out[0].Info? <==> file !in fs.files)
      && (|r.out| == 2 <==> ModelFile(parts, config, appPath) !in r.fs.files)
  {
    match SetModelName(argument)
    case None => Effect(fs, [Error(ArgumentMissing)])
    case Some(parts) =>
      var made := MakeClass(Effect(fs, []), "Getter", Folder("getters", config, appPath), parts,
        GetterContent(getterStub, parts, config));
      WarnIfModelNotExists(made, parts, config, appPath)
  }

  /** Running the command a second time changes no file and no folder. */
  lemma HandleIdempotent(argument: Option<string>, config: RepositoryConfig, fs: FileSystem, getterStub: string, appPath: string -> string)
    ensures var once := Handle(argument, config, fs, getterStub, appPath).fs;
      Handle(argument, config, once, getterStub, appPath).fs == once
  {
    if argument.Some? {
      var parts := SplitModelNameToParts(ToNamespaceFormat(argument.value));
      var target := Folder("getters", config, appPath);
      var content := GetterContent(getterStub, parts, config);
      var made := MakeClass(Effect(fs, []), "Getter", target, parts, content);
      MakeClassIdempotent(Effect(fs, []), "Getter", target, parts, content, content);
      assert Effect(made.fs, []).fs == made.fs;
    }
  }

  /**
   * For a one-line argument the getter lands in the getters folder under the
   * argument in path form: `Foo/Bar` and `Foo\Bar` both give `<folder>/Foo/BarGetter.php`.
   */
  lemma GetterFileFollowsArgument(argument: string, config: RepositoryConfig, appPath: string -> string)
    requires '\n' !in argument
    ensures GetterFile(SplitModelNameToParts(ToNamespaceFormat(argument)), config, appPath)
         == Folder("getters", config, appPath) + "/" + ToPathFormat(argument) + "Getter.php"
  {
    var name := ToNamespaceFormat(argument);
    assert '\n' !in name by {
      assert forall i :: 0 <= i < |name| ==> name[i] == argument[i] || name[i] == '\\';
      assert forall i :: 0 <= i < |argument| ==> argument[i] != '\n';
    }
    TargetFileFollowsName(Folder("getters", config, appPath), name, "Getter");
    PathOfNamespace(argument);
  }

  /**
   * Read as a template, the written getter fills `{{modelName}}` with the
   * base name and `{{gettersNamespace}}` with the getters namespace plus the
   * model's namespace suffix.
   */
  lemma GetterContentFillsTemplate(t: Template, parts: ModelParts, config: RepositoryConfig)
    requires WellFormed(t) && LoneBraces(parts.baseName)
    ensures GetterContent(Flatten(t), parts, config)
         == Flatten(Fill(Fill(t, "modelName", parts.baseName), "gettersNamespace",
                         NamespaceFor(config, "getters") + SuffixText(parts.namespaceSuffix)))
  {
    ConvertStubFillsTemplate(t, parts.baseName, "gettersNamespace", NamespaceFor(config, "getters") + SuffixText(parts.namespaceSuffix));
  }
}

/**
 * `make:filter` (the older package): the same flow as `make:getter` plus a
 * second notice. The older `UsesStubFunctions` and `UsesFolderConfig`
 * helpers it calls are not part of this model: the filters folder and
 * namespace are parameters, the two notices arrive as lines, and the older
 * trait's name resolution and `makeClass` are taken to be the newer trait's.
 */
module FilterCommand {
  import opened Php
  import opened Names
  import opened Stubs
  import opened StubFunctions

  /** `getConvertedStubContent('Filter')` with `getFiltersNamespace(false)` given. */
  function FilterContent(stubText: string, parts: ModelParts, filtersNamespace: string): string {
    ConvertStub(stubText, parts.baseName, "filtersNamespace", filtersNamespace + SuffixText(parts.namespaceSuffix))
  }

  /**
   * `handle()`: `setModelName()->makeFilter()->warnIfModelNotExists()->warnIfModelNotConfigured()`.
   * `notices(parts)` is what the two warnings print for the resolved model.
   */
  function Handle(argument: Option<string>, fs: FileSystem, filterStub: string, filtersFolder: string,
                  filtersNamespace: string, notices: ModelParts -> seq<Line>)
    : (r: Effect)
    ensures argument.None? ==> r.fs == fs && |r.out| == 1 && r.out[0].Error?
    ensures argument.Some? ==>
      var parts := SplitModelNameToParts(ToNamespaceFormat(argument.value));
      var file := TargetFile(filtersFolder, parts, "Filter");
      && r.fs.files.Keys == fs.files.Keys + {file}
      && (forall p :: p in fs.files ==> r.fs.files[p] == fs.files[p])
      && (file !in fs.files ==> r.fs.files[file] == FilterContent(filterStub, parts, filtersNamespace))
      && |r.out| == 1 + |notices(parts)|
      && (r.out[0].Info? <==> file !in fs.files)
      && r.out[1..] == notices(parts)
  {
    match SetModelName(argument)
    case None => Effect(fs, [Error(ArgumentMissing)])
    case Some(parts) =>
      var made := MakeClass(Effect(fs, []), "Filter", filtersFolder, parts,
        FilterContent(filterStub, parts, filtersNamespace));
      Effect(made.fs, made.out + notices(parts))
  }

  /** Running the command a second time changes no file and no folder. */
  lemma HandleIdempotent(argument: Option<string>, fs: FileSystem, filterStub: string, filtersFolder: string,
                         filtersNamespace: string, notices: ModelParts -> seq<Line>)
    ensures var once := Handle(argument, fs, filterStub, filtersFolder, filtersNamespace, notices).fs;
      Handle(argument, once, filterStub, filtersFolder, filtersNamespace, notices).fs == once
  {
    if argument.Some? {
      var parts := SplitModelNameToParts(ToNamespaceFormat(argument.value));
      var content := FilterContent(filterStub, parts, filtersNamespace);
      MakeClassIdempotent(Effect(fs, []), "Filter", filtersFolder, parts, content, content);
    }
  }

  /** Read as a template, the written filter fills `{{modelName}}` and `{{filtersNamespace}}`. */
  lemma FilterContentFillsTemplate(t: Template, parts: ModelParts, filtersNamespace: string)
    requires WellFormed(t) && LoneBraces(parts.baseName)
    ensures FilterContent(Flatten(t), parts, filtersNamespace)
         == Flatten(Fill(Fill(t, "modelName", parts.baseName), "filtersNamespace",
                         filtersNamespace + SuffixText(parts.namespaceSuffix)))
  {
    ConvertStubFillsTemplate(t, parts.baseName, "filtersNamespace", filtersNamespace + SuffixText(parts.namespaceSuffix));
  }
}

=== FILE: events.dfy ===
/**
 * Event and listener naming (`HasModelEvents`) and the event-to-listener
 * map the event service provider builds for every configured model.
 */
module ModelEvents {
  import opened Php

  const IsCreating: string := "IsCreating"
  const WasCreated: string := "WasCreated"

  /** `$availableEvents`: the lifecycle stages this trait wires. */
  const AvailableEvents: seq<string> := [IsCreating, WasCreated]

  predicate IsStage(s: string) {
    s == IsCreating || s == WasCreated
  }

  lemma StagesDistinct()
    ensures IsCreating != WasCreated
  {
    assert IsCreating[0] != WasCreated[0];
  }

  const EventPrefix: string := "App\\Events\\"
  const ListenerPrefix: string := "App\\Listeners\\"

  /** `sprintf('App\Events\%s%sEvent', $model, $event)`. */
  function EventClass(model: string, stage: string): string {
    EventPrefix + model + stage + "Event"
  }

  /** `sprintf('App\Listeners\%s%sListener', $model, $event)`. */
  function ListenerClass(model: string, stage: string): string {
    ListenerPrefix + model + stage + "Listener"
  }

  /** The argument of `setEventsForModel`: a model name, or an Eloquent model instance (by class name). */
  datatype ModelRef = Name(name: string) | Instance(className: string)

  const ModelsNamespace: string := "App\\Models\\"

  /** `getModelName`: names pass through; an instance's class loses every `App\Models\`. */
  function GetModelName(model: ModelRef): (r: string)
    ensures model.Name? ==> r == model.name
    ensures model.Instance? && !Contains(model.className, ModelsNamespace) ==> r == model.className
  {
    match model
    case Name(n) => n
    case Instance(c) =>
      if !Contains(c, ModelsNamespace) then
        ReplaceAllAbsent(c, ModelsNamespace, "");
        ReplaceAll(c, ModelsNamespace, "")
      else
        ReplaceAll(c, ModelsNamespace, "")
  }

  /** A model class directly under `App\Models` is named by its short name. */
  lemma ModelNameOfInstance(short: string)
    requires !Contains(short, ModelsNamespace)
    ensures GetModelName(Instance(ModelsNamespace + short)) == short
  {
    ReplaceAllLeading(short, ModelsNamespace, "");
    ReplaceAllAbsent(short, ModelsNamespace, "");
  }

  /** The `$events` and `$listeners` arrays, keyed by stage. */
  datatype EventSet = EventSet(events: map<string, string>, listeners: map<string, string>)

  /** `setEventsForModel($model)`: the `foreach` over the two available stages, unrolled. */
  function SetEventsForModel(es: EventSet, model: ModelRef): (r: EventSet)
    ensures r.events.Keys == es.events.Keys + {IsCreating, WasCreated}
    ensures r.listeners.Keys == es.listeners.Keys + {IsCreating, WasCreated}
    ensures forall s :: IsStage(s) ==>
      r.events[s] == EventClass(GetModelName(model), s) &&
      r.listeners[s] == ListenerClass(GetModelName(model), s)
    ensures forall k :: k in es.events && !IsStage(k) ==> r.events[k] == es.events[k]
    ensures forall k :: k in es.listeners && !IsStage(k) ==> r.listeners[k] == es.listeners[k]
  {
    var name := GetModelName(model);
    StagesDistinct();
    EventSet(
      es.events[IsCreating := EventClass(name, IsCreating)][WasCreated := EventClass(name, WasCreated)],
      es.listeners[IsCreating := ListenerClass(name, IsCreating)][WasCreated := ListenerClass(name, WasCreated)])
  }

  /**
   * Starting from the empty arrays, or from an earlier call, both arrays are
   * keyed by exactly the two stages, whatever model is set (so a second call
   * overwrites both and keeps the key set).
   */
  lemma SetEventsKeys(es: EventSet, model: ModelRef)
    requires es.events.Keys <= {IsCreating, WasCreated}
    requires es.listeners.Keys <= {IsCreating, WasCreated}
    ensures SetEventsForModel(es, model).events.Keys == {IsCreating, WasCreated}
    ensures SetEventsForModel(es, model).listeners.Keys == {IsCreating, WasCreated}
  {
  }

  /** Event class names are injective in (model, stage) over the available stages. */
  lemma EventClassInjective(m1: string, s1: string, m2: string, s2: string)
    requires IsStage(s1) && IsStage(s2)
    ensures EventClass(m1, s1) == EventClass(m2, s2) <==> m1 == m2 && s1 == s2
  {
    if EventClass(m1, s1) == EventClass(m2, s2) {
      var x1, x2 := EventClass(m1, s1), EventClass(m2, s2);
      var p := |EventPrefix|;
      assert |IsCreating| == 10 && |WasCreated| == 10;
      assert |m1| == |m2|;
      assert x1[p..p + |m1|] == m1;
      assert x2[p..p + |m2|] == m2;
      assert x1[p + |m1|..p + |m1| + 10] == s1;
      assert x2[p + |m2|..p + |m2| + 10] == s2;
    }
  }

  /** Listener class names are injective in (model, stage) over the available stages. */
  lemma ListenerClassInjective(m1: string, s1: string, m2: string, s2: string)
    requires IsStage(s1) && IsStage(s2)
    ensures ListenerClass(m1, s1) == ListenerClass(m2, s2) <==> m1 == m2 && s1 == s2
  {
    if ListenerClass(m1, s1) == ListenerClass(m2, s2) {
      var x1, x2 := ListenerClass(m1, s1), ListenerClass(m2, s2);
      var p := |ListenerPrefix|;
      assert |IsCreating| == 10 && |WasCreated| == 10;
      assert |m1| == |m2|;
      assert x1[p..p + |m1|] == m1;
      assert x2[p..p + |m2|] == m2;
      assert x1[p + |m1|..p + |m1| + 10] == s1;
      assert x2[p + |m2|..p + |m2| + 10] == s2;
    }
  }
}

/** `EventServiceProvider::registerListeners` and `registerListener`. */
module EventWiring {
  import opened Php
  import opened ModelEvents
  import opened Config

  /** The provider's `$listen` array: event class to listener classes. */
  type Listen = map<string, seq<string>>

  /** The two event classes of one model are different keys. */
  lemma EventClassesDistinct(model: string)
    ensures EventClass(model, IsCreating) != EventClass(model, WasCreated)
  {
    StagesDistinct();
    EventClassInjective(model, IsCreating, model, WasCreated);
  }

  /** `registerListener($model)`: the `foreach` over the two stages, unrolled. */
  function RegisterListener(listen: Listen, model: string): (r: Listen)
    ensures forall s :: IsStage(s) ==> EventClass(model, s) in r && r[EventClass(model, s)] == [ListenerClass(model, s)]
    ensures r.Keys == listen.Keys + {EventClass(model, IsCreating), EventClass(model, WasCreated)}
    ensures forall k :: k in listen && k != EventClass(model, IsCreating) && k != EventClass(model, WasCreated) ==> r[k] == listen[k]
    ensures |r| <= |listen| + 2
  {
    var e1, e2 := EventClass(model, IsCreating), EventClass(model, WasCreated);
    EventClassesDistinct(model);
    var l1 := listen[e1 := [ListenerClass(model, IsCreating)]];
    assert |l1| <= |listen| + 1;
    var l2 := l1[e2 := [ListenerClass(model, WasCreated)]];
    assert |l2| <= |l1| + 1;
    l2
  }

  /** Every value of `$listen` is a one-element list. */
  predicate Singletons(listen: Listen) {
    forall k :: k in listen ==> |listen[k]| == 1
  }

  /** `registerListeners()`: one `registerListener` per configured model, in order. */
  function RegisterListeners(listen: Listen, models: seq<string>): Listen
    decreases |models|
  {
    if |models| == 0 then listen
    else RegisterListeners(RegisterListener(listen, models[0]), models[1..])
  }

  /** The keys `$listen` gains: the two event classes of each model. */
  function EventKeys(models: seq<string>): (ks: set<string>)
    ensures forall m, s :: m in models && IsStage(s) ==> EventClass(m, s) in ks
    ensures |ks| <= 2 * |models|
    decreases |models|
  {
    if |models| == 0 then {}
    else
      var rest := EventKeys(models[1..]);
      assert forall m :: m in models ==> m == models[0] || m in models[1..];
      {EventClass(models[0], IsCreating), EventClass(models[0], WasCreated)} + rest
  }

  /** After registering the configured models every model's event maps to its own one-element listener list. */
  lemma {:induction false} RegisterListenersWiresEveryModel(listen: Listen, models: seq<string>, m: string, s: string)
    requires m in models && IsStage(s)
    ensures EventClass(m, s) in RegisterListeners(listen, models)
    ensures RegisterListeners(listen, models)[EventClass(m, s)] == [ListenerClass(m, s)]
    decreases |models|
  {
    var l1 := RegisterListener(listen, models[0]);
    if m in models[1..] {
      RegisterListenersWiresEveryModel(l1, models[1..], m, s);
    } else {
      assert m == models[0];
      forall m2, s2 | m2 in models[1..] && IsStage(s2)
        ensures EventClass(m, s) != EventClass(m2, s2)
      {
        EventClassInjective(m, s, m2, s2);
      }
      LaterModelsPreserve(l1, models[1..], EventClass(m, s));
    }
  }

  /** The keys of `$listen` are the earlier keys plus the configured models' event classes. */
  lemma {:induction false} RegisterListenersKeys(listen: Listen, models: seq<string>)
    ensures RegisterListeners(listen, models).Keys == listen.Keys + EventKeys(models)
    decreases |models|
  {
    if |models| > 0 {
      var m0 := models[0];
      RegisterListenersKeys(RegisterListener(listen, m0), models[1..]);
    }
  }

  /** Every value of `$listen` stays a one-element list. */
  lemma {:induction false} RegisterListenersSingletons(listen: Listen, models: seq<string>)
    requires Singletons(listen)
    ensures Singletons(RegisterListeners(listen, models))
    decreases |models|
  {
    if |models| > 0 {
      RegisterListenersSingletons(RegisterListener(listen, models[0]), models[1..]);
    }
  }

  /** At most two entries are added per configured model. */
  lemma {:induction false} RegisterListenersBound(listen: Listen, models: seq<string>)
    ensures |RegisterListeners(listen, models)| <= |listen| + 2 * |models|
    decreases |models|
  {
    if |models| > 0 {
      RegisterListenersBound(RegisterListener(listen, models[0]), models[1..]);
    }
  }

  /** A key that no later model's events hit keeps its value. */
  lemma {:induction false} LaterModelsPreserve(listen: Listen, models: seq<string>, k: string)
    requires k in listen
    requires forall m, s :: m in models && IsStage(s) ==> k != EventClass(m, s)
    ensures k in RegisterListeners(listen, models) && RegisterListeners(listen, models)[k] == listen[k]
    decreases |models|
  {
    if |models| > 0 {
      var l1 := RegisterListener(listen, models[0]);
      assert k != EventClass(models[0], IsCreating) && k != EventClass(models[0], WasCreated);
      LaterModelsPreserve(l1, models[1..], k);
    }
  }

  /** Registering one model leaves the entries of every other model as they were. */
  lemma RegisterListenerIsolated(listen: Listen, model: string, other: string, s: string)
    requires other != model && IsStage(s) && EventClass(other, s) in listen
    ensures RegisterListener(listen, model)[EventClass(other, s)] == listen[EventClass(other, s)]
  {
    EventClassInjective(other, s, model, IsCreating);
    EventClassInjective(other, s, model, WasCreated);
  }

  /** With the shipped configuration no listener is registered. */
  lemma DefaultRegistersNothing()
    ensures RegisterListeners(map[], Default.models) == map[]
  {
    DefaultConfigShape();
  }
}

=== FILE: folders.dfy ===
/**
 * The package configuration (`config/repository.php`) and the two
 * generations of the folder/namespace convention built on it:
 * `UsesFolderConfig` (older, every role) and `UsesFolderConfigTrait`
 * (newer, models and getters). Both read `repository.folders.<type>`,
 * fall back to `ucfirst(type)`, and memoise the result in a property.
 */
module Config {
  import opened Php

  /** The two keys of `config('repository')` the package reads. */
  datatype RepositoryConfig = RepositoryConfig(models: seq<string>, folders: map<string, string>)

  /** The shipped defaults. */
  const Default: RepositoryConfig := RepositoryConfig(
    [],
    map[
      "models" := "Models",
      "contracts" := "Contracts",
      "repositories" := "Repositories",
      "events" := "Events",
      "listeners" := "Listeners"
    ])

  /** `config('repository.folders.' . $type, ucfirst($type))`. */
  function FolderLeaf(config: RepositoryConfig, kind: string): (leaf: string)
    ensures kind in config.folders ==> leaf == config.folders[kind]
    ensures kind !in config.folders ==> leaf == Ucfirst(kind)
  {
    if kind in config.folders then config.folders[kind] else Ucfirst(kind)
  }

  /** `ucfirst` of each role key the package knows, one key per lemma to keep each proof small. */
  lemma ModelsLeaf()
    ensures Ucfirst("models") == "Models"
  {
    assert "models"[1..] == "odels";
    assert Ucfirst("models") == [ToUpper('m')] + "odels";
  }

  lemma ContractsLeaf()
    ensures Ucfirst("contracts") == "Contracts"
  {
    assert "contracts"[1..] == "ontracts";
    assert Ucfirst("contracts") == [ToUpper('c')] + "ontracts";
  }

  lemma RepositoriesLeaf()
    ensures Ucfirst("repositories") == "Repositories"
  {
    assert "repositories"[1..] == "epositories";
    assert Ucfirst("repositories") == [ToUpper('r')] + "epositories";
  }

  lemma EventsLeaf()
    ensures Ucfirst("events") == "Events"
  {
    assert "events"[1..] == "vents";
    assert Ucfirst("events") == [ToUpper('e')] + "vents";
  }

  lemma ListenersLeaf()
    ensures Ucfirst("listeners") == "Listeners"
  {
    assert "listeners"[1..] == "isteners";
    assert Ucfirst("listeners") == [ToUpper('l')] + "isteners";
  }

  lemma GettersLeaf()
    ensures Ucfirst("getters") == "Getters"
  {
    assert "getters"[1..] == "etters";
    assert Ucfirst("getters") == [ToUpper('g')] + "etters";
  }

  lemma FiltersLeaf()
    ensures Ucfirst("filters") == "Filters"
  {
    assert "filters"[1..] == "ilters";
    assert Ucfirst("filters") == [ToUpper('f')] + "ilters";
  }

  /**
   * No model is registered by default; the default folder table names five
   * roles, each mapped to its capitalised key, so that it agrees with the
   * `ucfirst` fallback; getters and filters always take the fallback.
   */
  lemma DefaultConfigShape()
    ensures Default.models == []
    ensures Default.folders.Keys == {"models", "contracts", "repositories", "events", "listeners"}
    ensures forall k :: k in Default.folders ==> Default.folders[k] == Ucfirst(k)
    ensures "getters" !in Default.folders && "filters" !in Default.folders
    ensures FolderLeaf(Default, "getters") == "Getters"
    ensures FolderLeaf(Default, "filters") == "Filters"
  {
    ModelsLeaf(); ContractsLeaf(); RepositoriesLeaf(); EventsLeaf(); ListenersLeaf();
    GettersLeaf(); FiltersLeaf();
    var keys := {"models", "contracts", "repositories", "events", "listeners"};
    assert Default.folders.Keys == keys;
    forall k | k in Default.folders
      ensures Default.folders[k] == Ucfirst(k)
    {
      assert k in keys;
    }
  }

  /** With the defaults every role's leaf is its capitalised name. */
  lemma DefaultLeafIsUcfirst(kind: string)
    ensures FolderLeaf(Default, kind) == Ucfirst(kind)
  {
    DefaultConfigShape();
  }
}

/** `UsesFolderConfigTrait` (the newer trait). */
module FolderConfig {
  import opened Php
  import opened Names
  import opened Config

  /** The trait's typed string properties; a missing key is an uninitialised property. */
  type Properties = map<string, string>

  /** The error PHP raises when an uninitialised typed property is read. */
  datatype Error = UninitializedProperty(property: string)

  datatype Result<T> = Ok(value: T) | Err(error: Error)

  const AppNamespace: string := "App\\"

  /** The value `getNamespaceWithoutTrailingSlash($type)` computes on a cold cache. */
  function NamespaceFor(config: RepositoryConfig, kind: string): (ns: string)
    ensures |ns| >= |AppNamespace| && ns[..|AppNamespace|] == AppNamespace
    ensures '/' !in ns
    ensures ToPathFormat(ns[|AppNamespace|..]) == ToPathFormat(FolderLeaf(config, kind))
  {
    var leaf := ToNamespaceFormat(FolderLeaf(config, kind));
    PathOfNamespace(FolderLeaf(config, kind));
    assert (AppNamespace + leaf)[|AppNamespace|..] == leaf;
    AppNamespace + leaf
  }

  /**
   * `getNamespaceWithoutTrailingSlash($type)` over the properties: an empty
   * (or unset) `<type>Namespace` is filled from the configuration, a
   * non-empty one is returned as it is.
   */
  function NamespaceWithoutTrailingSlash(kind: string, config: RepositoryConfig, props: Properties)
    : (r: (string, Properties))
    ensures var key := kind + "Namespace";
      key in props && !IsEmpty(props[key]) ==> r == (props[key], props)
    ensures var key := kind + "Namespace";
      !(key in props && !IsEmpty(props[key])) ==> r == (NamespaceFor(config, kind), props[key := NamespaceFor(config, kind)])
  {
    Memoised(props, kind + "Namespace", NamespaceFor(config, kind))
  }

  /** `getNamespace($type)`: the same namespace with a trailing `\`. */
  function Namespace(kind: string, config: RepositoryConfig, props: Properties): (r: (string, Properties))
    ensures r.0 == NamespaceWithoutTrailingSlash(kind, config, props).0 + "\\"
    ensures r.1 == NamespaceWithoutTrailingSlash(kind, config, props).1
    ensures r.0[|r.0| - 1] == '\\'
  {
    var (ns, props') := NamespaceWithoutTrailingSlash(kind, config, props);
    (ns + "\\", props')
  }

  /**
   * Memoisation: the first call leaves a non-empty namespace in the
   * property, and a second call returns that value without changing anything.
   */
  lemma NamespaceMemoised(kind: string, config: RepositoryConfig, props: Properties)
    ensures var (v1, p1) := NamespaceWithoutTrailingSlash(kind, config, props);
      && kind + "Namespace" in p1 && p1[kind + "Namespace"] == v1 && !IsEmpty(v1)
      && NamespaceWithoutTrailingSlash(kind, config, p1) == (v1, p1)
  {
    var key := kind + "Namespace";
    var (v1, p1) := NamespaceWithoutTrailingSlash(kind, config, props);
    if !(key in props && !IsEmpty(props[key])) {
      assert v1 == NamespaceFor(config, kind);
      assert |v1| >= |AppNamespace|;
    }
  }

  /** On a cold cache the namespace is `App\` + the namespace form of the folder leaf, free of `/`. */
  lemma ColdNamespaceFromConfig(kind: string, config: RepositoryConfig, props: Properties)
    requires kind + "Namespace" !in props
    ensures var ns := NamespaceWithoutTrailingSlash(kind, config, props).0;
      ns == AppNamespace + ToNamespaceFormat(FolderLeaf(config, kind)) && '/' !in ns
  {
  }

  /**
   * `getFolder($type)` as written: it reads its own property only. Unset, the
   * read raises an error; set to "" or "0", it yields `app_path` of that value;
   * the configuration is never consulted.
   */
  function GetFolderAsWritten(kind: string, props: Properties, appPath: string -> string)
    : (r: Result<(string, Properties)>)
    ensures kind + "Folder" !in props ==> r == Err(UninitializedProperty(kind + "Folder"))
    ensures kind + "Folder" in props ==> r.Ok? && r.value.0 == appPath(props[kind + "Folder"])
  {
    var key := kind + "Folder";
    if key !in props then Err(UninitializedProperty(key))
    else if IsEmpty(props[key]) then
      var folder := ToPathFormat(props[key]);
      assert folder == props[key];
      Ok((appPath(folder), props[key := folder]))
    else Ok((appPath(props[key]), props))
  }

  /**
   * The folder leaf the convention calls for: the configured leaf, or
   * `ucfirst`, in path form; it names the same place as the namespace.
   */
  function FolderPath(kind: string, config: RepositoryConfig): (leaf: string)
    ensures '\\' !in leaf
    ensures AppNamespace + ToNamespaceFormat(leaf) == NamespaceFor(config, kind)
    ensures kind in config.folders ==> ToNamespaceFormat(leaf) == ToNamespaceFormat(config.folders[kind])
    ensures kind !in config.folders ==> ToNamespaceFormat(leaf) == ToNamespaceFormat(Ucfirst(kind))
  {
    var leaf := ToPathFormat(FolderLeaf(config, kind));
    NamespaceOfPath(FolderLeaf(config, kind));
    leaf
  }

  /** `getFolder($type)` as evidently intended: `app_path` of the configured folder in path form. */
  function Folder(kind: string, config: RepositoryConfig, appPath: string -> string): string {
    appPath(FolderPath(kind, config))
  }

  /**
   * The as-written `getFolder` ignores `repository.folders`: on a fresh
   * command it fails, and with the property set to "" it yields `app_path("")`
   * whatever the configuration says.
   */
  lemma GetFolderIgnoresConfig(appPath: string -> string)
    ensures GetFolderAsWritten("getters", map[], appPath).Err?
    ensures var c := RepositoryConfig([], map["getters" := "Queries"]);
      && GetFolderAsWritten("getters", map["gettersFolder" := ""], appPath) == Ok((appPath(""), map["gettersFolder" := ""]))
      && Folder("getters", c, appPath) == appPath("Queries")
  {
    var c := RepositoryConfig([], map["getters" := "Queries"]);
    var props := map["gettersFolder" := ""];
    assert "getters" + "Folder" == "gettersFolder";
    assert ToPathFormat("") == "";
    assert IsEmpty(props["gettersFolder"]);
    assert props["gettersFolder" := ""] == props;
    assert FolderLeaf(c, "getters") == "Queries";
    assert ToPathFormat("Queries") == "Queries";
  }

  /** `classExists($type, $class)`: the file the check looks for. */
  function ClassFile(kind: string, cls: string, config: RepositoryConfig, appPath: string -> string): string {
    Folder(kind, config, appPath) + "/" + ToPathFormat(cls) + ".php"
  }

  /** `classExists`, against the set of files present. */
  predicate ClassExists(kind: string, cls: string, config: RepositoryConfig, appPath: string -> string, files: set<string>) {
    ClassFile(kind, cls, config, appPath) in files
  }

  /** `modelExists($class)`. */
  predicate ModelExists(cls: string, config: RepositoryConfig, appPath: string -> string, files: set<string>) {
    ClassExists("models", cls, config, appPath, files)
  }

  /**
   * The class file is the folder, a `/`, the class in path form and `.php`;
   * the namespace and path forms of one class name check the same file.
   */
  lemma ClassFileShape(kind: string, cls: string, config: RepositoryConfig, appPath: string -> string)
    ensures var f := ClassFile(kind, cls, config, appPath);
      var d := Folder(kind, config, appPath);
      && f[..|d|] == d
      && f[|d|..] == "/" + ToPathFormat(cls) + ".php"
      && f == ClassFile(kind, ToNamespaceFormat(cls), config, appPath)
  {
    var d := Folder(kind, config, appPath);
    var tail := "/" + ToPathFormat(cls) + ".php";
    assert ClassFile(kind, cls, config, appPath) == d + tail;
    PathOfNamespace(cls);
    assert ClassFile(kind, ToNamespaceFormat(cls), config, appPath) == d + tail;
  }
}

/** `UsesFolderConfig` (the older trait). */
module LegacyFolderConfig {
  import opened Php
  import opened Names
  import opened Config

  /** The untyped properties; a missing key is `null`. */
  type Properties = map<string, string>

  /** The roles with a dedicated getter. */
  datatype Role = Models | Contracts | Repositories | Events | Listeners {
    /** The `$type` argument each getter passes. */
    function Key(): string {
      match this
      case Models => "models"
      case Contracts => "contracts"
      case Repositories => "repositories"
      case Events => "events"
      case Listeners => "listeners"
    }
  }

  /** Each role's getter passes a key of its own, and the key names the role. */
  lemma RoleKeysDistinct(a: Role, b: Role)
    ensures a.Key() == b.Key() <==> a == b
    ensures Ucfirst(a.Key()) == Default.folders[a.Key()]
  {
    DefaultConfigShape();
  }

  /** The folder value computed on a cold cache: the leaf in path form. */
  function FolderFor(config: RepositoryConfig, kind: string): (f: string)
    ensures '\\' !in f
    ensures |f| == |FolderLeaf(config, kind)|
    ensures forall i :: 0 <= i < |f| ==>
      f[i] == (if FolderLeaf(config, kind)[i] == '\\' then '/' else FolderLeaf(config, kind)[i])
  {
    ToPathFormat(FolderLeaf(config, kind))
  }

  /** The namespace value computed on a cold cache: `App\` + leaf in namespace form + `\`. */
  function NamespaceFor(config: RepositoryConfig, kind: string): (ns: string)
    ensures |ns| >= 5 && ns[..4] == "App\\" && ns[|ns| - 1] == '\\'
    ensures '/' !in ns
    ensures ns[4..|ns| - 1] == ToNamespaceFormat(FolderFor(config, kind))
  {
    var leaf := FolderLeaf(config, kind);
    NamespaceOfPath(leaf);
    "App\\" + ToNamespaceFormat(leaf) + "\\"
  }

  /** Folder and namespace of one role name the same place: they differ only by separator and the `App\...\` wrapping. */
  lemma FolderAndNamespaceAgree(config: RepositoryConfig, kind: string)
    ensures var ns := NamespaceFor(config, kind);
      ToPathFormat(ns[4..|ns| - 1]) == FolderFor(config, kind)
  {
    FormatRoundTrip(FolderFor(config, kind));
  }

  /** `getFolder($type)`: memoised in `<type>Folder`. */
  function GetFolder(kind: string, config: RepositoryConfig, props: Properties): (r: (string, Properties))
    ensures var key := kind + "Folder";
      key in props && !IsEmpty(props[key]) ==> r == (props[key], props)
    ensures var key := kind + "Folder";
      !(key in props && !IsEmpty(props[key])) ==> r == (FolderFor(config, kind), props[key := FolderFor(config, kind)])
  {
    Memoised(props, kind + "Folder", FolderFor(config, kind))
  }

  /** `getNamespace($type)`: memoised in `<type>Namespace`. */
  function GetNamespace(kind: string, config: RepositoryConfig, props: Properties): (r: (string, Properties))
    ensures var key := kind + "Namespace";
      key in props && !IsEmpty(props[key]) ==> r == (props[key], props)
    ensures var key := kind + "Namespace";
      !(key in props && !IsEmpty(props[key])) ==> r == (NamespaceFor(config, kind), props[key := NamespaceFor(config, kind)])
  {
    Memoised(props, kind + "Namespace", NamespaceFor(config, kind))
  }

  /**
   * Memoisation: repeating a lookup returns the first value and leaves the
   * properties as the first call left them (an empty folder such as "0" is
   * recomputed, to the same value).
   */
  lemma LookupsMemoised(kind: string, config: RepositoryConfig, props: Properties)
    ensures var (f1, p1) := GetFolder(kind, config, props);
      GetFolder(kind, config, p1) == (f1, p1)
    ensures var (n1, q1) := GetNamespace(kind, config, props);
      GetNamespace(kind, config, q1) == (n1, q1)
  {
    MemoisedStable(props, kind + "Folder", FolderFor(config, kind));
    MemoisedStable(props, kind + "Namespace", NamespaceFor(config, kind));
  }

  /** The per-role folder getters (`getModelsFolder`, `getContractsFolder`, ...). */
  function RoleFolder(role: Role, config: RepositoryConfig, props: Properties): (r: (string, Properties))
    ensures IsCold(role, props, "Folder") ==> r.0 == ToPathFormat(FolderLeaf(config, role.Key()))
    ensures forall k :: k in props && k != role.Key() + "Folder" ==> k in r.1 && r.1[k] == props[k]
  {
    GetFolder(role.Key(), config, props)
  }

  /** The per-role namespace getters (`getModelsNamespace`, `getContractsNamespace`, ...). */
  function RoleNamespace(role: Role, config: RepositoryConfig, props: Properties): (r: (string, Properties))
    ensures IsCold(role, props, "Namespace") ==> r.0 == "App\\" + ToNamespaceFormat(FolderLeaf(config, role.Key())) + "\\"
    ensures forall k :: k in props && k != role.Key() + "Namespace" ==> k in r.1 && r.1[k] == props[k]
  {
    GetNamespace(role.Key(), config, props)
  }

  /** The role's property has not been filled yet. */
  predicate IsCold(role: Role, props: Properties, suffix: string) {
    var key := role.Key() + suffix;
    !(key in props && !IsEmpty(props[key]))
  }

  /** A configured leaf without separators is used verbatim by both getters. */
  lemma PlainLeafLookups(role: Role, config: RepositoryConfig)
    requires role.Key() in config.folders
    requires '/' !in config.folders[role.Key()] && '\\' !in config.folders[role.Key()]
    ensures RoleNamespace(role, config, map[]).0 == "App\\" + config.folders[role.Key()] + "\\"
    ensures RoleFolder(role, config, map[]).0 == config.folders[role.Key()]
  {
    FormatsFixSeparatorFree(config.folders[role.Key()]);
  }

  /** The shipped folder leaves hold no separator. */
  lemma DefaultLeavesPlain()
    ensures forall k :: k in Default.folders ==> '/' !in Default.folders[k] && '\\' !in Default.folders[k]
  {
  }

  /** With the shipped configuration a role's namespace is `App\<Leaf>\` and its folder `<Leaf>`. */
  lemma DefaultRoleNamespace(role: Role)
    ensures RoleNamespace(role, Default, map[]).0 == "App\\" + Default.folders[role.Key()] + "\\"
    ensures RoleFolder(role, Default, map[]).0 == Default.folders[role.Key()]
  {
    DefaultLeavesPlain();
    assert role.Key() in Default.folders;
    PlainLeafLookups(role, Default);
  }

  /** The events namespace under the shipped configuration. */
  lemma DefaultEventsNamespace()
    ensures RoleNamespace(Events, Default, map[]).0 == "App\\Events\\"
  {
    DefaultRoleNamespace(Events);
    assert Default.folders["events"] == "Events";
  }
}

=== FILE: names.dfy ===
/**
 * Model-name resolution (UsesStubFunctionsTrait::setModelName and
 * splitModelNameToParts, UsesFolderConfigTrait::toNamespaceFormat and
 * toPathFormat): a user-given model name such as `Foo/Bar` or `Foo\Bar` is
 * stored in namespace form and split at its last separator into a base name
 * and a relative path / namespace suffix.
 */
module Names {
  import opened Php

  /** `toNamespaceFormat`: every `/` becomes `\`. */
  function ToNamespaceFormat(s: string): (r: string)
    ensures |r| == |s|
    ensures '/' !in r
    ensures forall i :: 0 <= i < |s| && s[i] != '/' ==> r[i] == s[i]
    ensures forall i :: 0 <= i < |s| && s[i] == '/' ==> r[i] == '\\'
  {
    ReplaceChar(s, '/', '\\')
  }

  /** `toPathFormat`: every `\` becomes `/`. */
  function ToPathFormat(s: string): (r: string)
    ensures |r| == |s|
    ensures '\\' !in r
    ensures forall i :: 0 <= i < |s| && s[i] != '\\' ==> r[i] == s[i]
    ensures forall i :: 0 <= i < |s| && s[i] == '\\' ==> r[i] == '/'
  {
    ReplaceChar(s, '\\', '/')
  }

  lemma NamespaceFormatIdempotent(s: string)
    ensures ToNamespaceFormat(ToNamespaceFormat(s)) == ToNamespaceFormat(s)
  {
  }

  lemma PathFormatIdempotent(s: string)
    ensures ToPathFormat(ToPathFormat(s)) == ToPathFormat(s)
  {
  }

  /** The two conversions undo each other on strings that use only the other separator. */
  lemma FormatRoundTrip(s: string)
    ensures '\\' !in s ==> ToPathFormat(ToNamespaceFormat(s)) == s
    ensures '/' !in s ==> ToNamespaceFormat(ToPathFormat(s)) == s
  {
  }

  /** A string without separators is left alone by both conversions. */
  lemma FormatsFixSeparatorFree(s: string)
    requires '/' !in s && '\\' !in s
    ensures ToNamespaceFormat(s) == s && ToPathFormat(s) == s
  {
  }

  /** Both forms of the same name agree once brought to path form. */
  lemma PathOfNamespace(s: string)
    ensures ToPathFormat(ToNamespaceFormat(s)) == ToPathFormat(s)
  {
  }

  /** Both forms of the same name agree once brought to namespace form. */
  lemma NamespaceOfPath(s: string)
    ensures ToNamespaceFormat(ToPathFormat(s)) == ToNamespaceFormat(s)
  {
  }

  /** Path form has a `/` exactly where the name has either separator. */
  lemma PathFormatSlash(s: string)
    ensures '/' in ToPathFormat(s) <==> '/' in s || '\\' in s
  {
    var p := ToPathFormat(s);
    if '/' in s || '\\' in s {
      var i :| 0 <= i < |s| && (s[i] == '/' || s[i] == '\\');
      assert p[i] == '/';
    }
    if '/' in p {
      var i :| 0 <= i < |p| && p[i] == '/';
      assert s[i] == '/' || s[i] == '\\';
    }
  }

  /** Neither conversion adds or removes a character other than the two separators. */
  lemma FormatsKeepOtherChars(s: string, c: char)
    requires c != '/' && c != '\\'
    ensures c in ToPathFormat(s) <==> c in s
    ensures c in ToNamespaceFormat(s) <==> c in s
  {
    var p, n := ToPathFormat(s), ToNamespaceFormat(s);
    if c in s {
      var i :| 0 <= i < |s| && s[i] == c;
      assert p[i] == c && n[i] == c;
    }
    if c in p {
      var i :| 0 <= i < |p| && p[i] == c;
      assert s[i] == c;
    }
    if c in n {
      var i :| 0 <= i < |n| && n[i] == c;
      assert s[i] == c;
    }
  }

  /** Splits `s` around its last `c`. */
  function SplitAtLast(s: string, c: char): (r: (string, string))
    requires c in s
    ensures r.0 + [c] + r.1 == s
    ensures c !in r.1
    decreases |s|
  {
    var last := s[|s| - 1];
    if last == c then (s[..|s| - 1], "")
    else
      assert s == s[..|s| - 1] + [last];
      var (a, b) := SplitAtLast(s[..|s| - 1], c);
      (a, b + [last])
  }

  /**
   * `preg_match('/(.*)\/(.*)/', p)`: the capture groups of the first match.
   * `.` does not match a line break, so the match lies on the first line
   * holding a `/`; the greedy first group runs up to that line's last `/`.
   */
  function MatchLastSlash(p: string): (m: Option<(string, string)>)
    ensures m.None? <==> '/' !in p
    ensures m.Some? ==> '/' !in m.value.1 && '\n' !in m.value.0 && '\n' !in m.value.1
    ensures m.Some? && '\n' !in p ==> m.value.0 + "/" + m.value.1 == p
    decreases |p|
  {
    var line := BeforeFirst(p, '\n');
    if '/' in line then
      assert forall i :: 0 <= i < |line| ==> line[i] in line;
      Some(SplitAtLast(line, '/'))
    else if |line| < |p| then
      assert p == line + [p[|line|]] + p[|line| + 1..];
      MatchLastSlash(p[|line| + 1..])
    else
      assert line == p;
      None
  }

  /**
   * The resolved model name: the stored `modelName` (namespace form), the
   * `modelBaseName`, and the nullable `modelNamespaceSuffix` / `modelPathSuffix`.
   */
  datatype ModelParts = ModelParts(
    name: string,
    baseName: string,
    namespaceSuffix: Option<string>,
    pathSuffix: Option<string>)

  /** A null suffix concatenates as the empty string. */
  function SuffixText(o: Option<string>): string {
    o.GetOr("")
  }

  /** `splitModelNameToParts`. */
  function SplitModelNameToParts(modelName: string): (m: ModelParts)
    ensures m.name == modelName
    ensures '/' !in m.baseName && '\\' !in m.baseName
    ensures m.pathSuffix.None? <==> m.namespaceSuffix.None?
    ensures m.pathSuffix.None? <==> '/' !in modelName && '\\' !in modelName
    ensures m.pathSuffix.None? ==> m.baseName == modelName
    ensures m.pathSuffix.Some? ==>
      |m.pathSuffix.value| > 0 && m.pathSuffix.value[0] == '/' &&
      m.namespaceSuffix == Some(ToNamespaceFormat(m.pathSuffix.value))
  {
    var p := ToPathFormat(modelName);
    PathFormatSlash(modelName);
    match MatchLastSlash(p)
    case None => ModelParts(modelName, modelName, None, None)
    case Some((prefix, base)) =>
      MatchedGroupsComeFromInput(p);
      assert ToNamespaceFormat("/" + prefix) == "\\" + ToNamespaceFormat(prefix);
      ModelParts(modelName, base, Some("\\" + ToNamespaceFormat(prefix)), Some("/" + prefix))
  }

  /** The parts in terms of the match of the name's path form. */
  lemma SplitFromMatch(modelName: string)
    ensures var m := SplitModelNameToParts(modelName);
      var g := MatchLastSlash(ToPathFormat(modelName));
      && (g.None? ==> m == ModelParts(modelName, modelName, None, None))
      && (g.Some? ==> m.baseName == g.value.1 && m.pathSuffix == Some("/" + g.value.0))
  {
  }

  /** Every character of a capture group is a character of the subject. */
  lemma {:induction false} MatchedGroupsComeFromInput(p: string)
    requires MatchLastSlash(p).Some?
    ensures forall c :: c in MatchLastSlash(p).value.0 ==> c in p
    ensures forall c :: c in MatchLastSlash(p).value.1 ==> c in p
    decreases |p|
  {
    var line := BeforeFirst(p, '\n');
    if '/' in line {
      var (a, b) := SplitAtLast(line, '/');
      assert line == a + "/" + b;
      assert forall c :: c in line ==> c in p by {
        assert line <= p;
        forall c | c in line ensures c in p {
          var i :| 0 <= i < |line| && line[i] == c;
          assert p[i] == c;
        }
      }
    } else {
      assert |line| < |p|;
      var rest := p[|line| + 1..];
      MatchedGroupsComeFromInput(rest);
      forall c | c in rest ensures c in p {
        var i :| 0 <= i < |rest| && rest[i] == c;
        assert p[|line| + 1 + i] == c;
      }
    }
  }

  /**
   * The base name and the path suffix rebuild the path form of the name
   * (for names on one line).
   */
  lemma SplitReconstructs(modelName: string)
    requires '\n' !in modelName
    ensures var m := SplitModelNameToParts(modelName);
      m.pathSuffix.Some? ==> m.pathSuffix.value + "/" + m.baseName == "/" + ToPathFormat(modelName)
  {
    var p := ToPathFormat(modelName);
    FormatsKeepOtherChars(modelName, '\n');
    SplitFromMatch(modelName);
    var g := MatchLastSlash(p);
    if g.Some? {
      SlashJoin(g.value.0, g.value.1, p);
    }
  }

  lemma SlashJoin(a: string, b: string, p: string)
    requires a + "/" + b == p
    ensures "/" + a + "/" + b == "/" + p
  {
    assert "/" + a + "/" + b == "/" + (a + "/" + b);
  }

  /** Suffix, `/` and base name spell the name in path form, nested or not (for names on one line). */
  lemma SplitPathText(modelName: string)
    requires '\n' !in modelName
    ensures var m := SplitModelNameToParts(modelName);
      SuffixText(m.pathSuffix) + "/" + m.baseName == "/" + ToPathFormat(modelName)
  {
    if '/' in modelName || '\\' in modelName {
      SplitReconstructs(modelName);
    } else {
      SplitOfPlainName(modelName);
    }
  }

  /** A name without separators is its own base name, with no suffixes. */
  lemma SplitOfPlainName(modelName: string)
    requires '/' !in modelName && '\\' !in modelName
    ensures SplitModelNameToParts(modelName) == ModelParts(modelName, modelName, None, None)
    ensures ToPathFormat(modelName) == modelName
  {
    FormatsFixSeparatorFree(modelName);
  }

  /** The two suffixes name the same folders, one in path form and one in namespace form. */
  lemma SuffixesAgree(modelName: string)
    ensures var m := SplitModelNameToParts(modelName);
      m.pathSuffix.Some? ==>
        ToPathFormat(m.namespaceSuffix.value) == m.pathSuffix.value &&
        ToNamespaceFormat(m.pathSuffix.value) == m.namespaceSuffix.value
  {
    var m := SplitModelNameToParts(modelName);
    if m.pathSuffix.Some? {
      var p := ToPathFormat(modelName);
      var prefix := MatchLastSlash(p).value.0;
      assert '\\' !in prefix by {
        MatchedGroupsComeFromInput(p);
      }
      FormatRoundTrip(m.pathSuffix.value);
    }
  }

  /** On a one-line subject ending in `/`, the first group is everything before that slash and the second is empty. */
  lemma TrailingSlashMatch(dir: string)
    requires '\n' !in dir
    ensures MatchLastSlash(dir + "/") == Some((dir, ""))
  {
    var p := dir + "/";
    assert '\n' !in p;
    BeforeFirstWithout(p, '\n');
    assert p[|p| - 1] == '/' && p[|p| - 1] in p;
    assert p[..|p| - 1] == dir;
  }

  lemma TrailingSlashPath(dir: string)
    ensures ToPathFormat(dir + "\\") == ToPathFormat(dir) + "/"
  {
  }

  /**
   * A trailing separator is accepted: `Foo\` (or `Foo/Bar/`) leaves an
   * empty base name and makes the whole prefix the path suffix.
   */
  lemma TrailingSeparatorGivesEmptyBase(dir: string)
    requires '\n' !in dir
    ensures SplitModelNameToParts(dir + "\\").baseName == ""
    ensures SplitModelNameToParts(dir + "\\").pathSuffix == Some("/" + ToPathFormat(dir))
  {
    TrailingSlashPath(dir);
    FormatsKeepOtherChars(dir, '\n');
    SplitFromMatch(dir + "\\");
    TrailingSlashMatch(ToPathFormat(dir));
  }

  /** `setModelName`: without an argument the command reports and stops (`None`). */
  function SetModelName(argument: Option<string>): (r: Option<ModelParts>)
    ensures argument.None? <==> r.None?
    ensures argument.Some? ==> r.value.name == ToNamespaceFormat(argument.value)
    ensures argument.Some? ==> '/' !in r.value.name
    ensures r.Some? ==> r.value == SplitModelNameToParts(r.value.name)
  {
    match argument
    case None => None
    case Some(a) => Some(SplitModelNameToParts(ToNamespaceFormat(a)))
  }
}

=== FILE: php.dfy ===
/**
 * The PHP string and array primitives the package leans on, stated once:
 * `empty()` on strings, `ucfirst`, `str_replace` (single character and
 * whole needle), `explode(d, s)[0]`, `Str::contains` and the lazily filled
 * property.
 * Strings are `seq<char>`; one `char` stands for one PHP byte.
 */
module Php {

  /** PHP's `null`-or-value, used for nullable properties and optional arguments. */
  datatype Option<+T> = None | Some(value: T) {
    function GetOr(default: T): T {
      match this
      case Some(v) => v
      case None => default
    }
  }

  /** `empty($s)` on a string: true exactly for "" and "0". */
  predicate IsEmpty(s: string) {
    s == "" || s == "0"
  }

  /** PHP truthiness of a string (used where a string is the condition of `?:` or `if`). */
  predicate Truthy(s: string) {
    !IsEmpty(s)
  }

  /**
   * The lazy property `if (empty($this->p)) { $this->p = <computed>; }
   * return $this->p;` over a map from property name to value: a non-empty
   * stored value wins, anything else is replaced by the computed one.
   */
  function Memoised(props: map<string, string>, key: string, computed: string): (r: (string, map<string, string>))
    ensures key in props && !IsEmpty(props[key]) ==> r == (props[key], props)
    ensures !(key in props && !IsEmpty(props[key])) ==> r.0 == computed && r.1 == props[key := computed]
    ensures key in r.1 && r.1[key] == r.0
  {
    if key in props && !IsEmpty(props[key]) then (props[key], props)
    else (computed, props[key := computed])
  }

  /**
   * A second lookup returns what the first stored and changes nothing; a
   * stored value that is itself empty is recomputed to the same value.
   */
  lemma MemoisedStable(props: map<string, string>, key: string, computed: string)
    ensures var (v, p) := Memoised(props, key, computed);
      Memoised(p, key, computed) == (v, p)
  {
    var (v, p) := Memoised(props, key, computed);
    if IsEmpty(v) {
      assert p[key := computed] == p;
    }
  }

  predicate IsAsciiLower(c: char) {
    'a' <= c <= 'z'
  }

  predicate IsAsciiUpper(c: char) {
    'A' <= c <= 'Z'
  }

  /** Upper-cases an ASCII lower-case letter; every other character is kept. */
  function ToUpper(c: char): (u: char)
    ensures IsAsciiLower(c) ==> IsAsciiUpper(u) && u as int + 32 == c as int
    ensures !IsAsciiLower(c) ==> u == c
  {
    if IsAsciiLower(c) then (c as int - 32) as char else c
  }

  /** `ucfirst`: only the first character may change, and only to its upper-case letter. */
  function Ucfirst(s: string): (r: string)
    ensures |r| == |s|
    ensures |s| > 0 ==> r[1..] == s[1..]
    ensures |s| > 0 && !IsAsciiLower(s[0]) ==> r == s
    ensures |s| > 0 && IsAsciiLower(s[0]) ==> IsAsciiUpper(r[0])
  {
    if |s| == 0 then s else [ToUpper(s[0])] + s[1..]
  }

  lemma UcfirstIdempotent(s: string)
    ensures Ucfirst(Ucfirst(s)) == Ucfirst(s)
  {
  }

  /** `str_replace($from, $to, $s)` for one-character needles. */
  function ReplaceChar(s: string, from: char, to: char): (r: string)
    ensures |r| == |s|
    ensures forall i :: 0 <= i < |s| ==> r[i] == (if s[i] == from then to else s[i])
  {
    seq(|s|, i requires 0 <= i < |s| => if s[i] == from then to else s[i])
  }

  /** `explode($d, $s)[0]`: the text before the first `d`, or all of `s`. */
  function BeforeFirst(s: string, d: char): (r: string)
    ensures d !in r
    ensures r <= s
    ensures |r| < |s| ==> s[|r|] == d
    decreases |s|
  {
    if |s| == 0 then s
    else if s[0] == d then ""
    else [s[0]] + BeforeFirst(s[1..], d)
  }

  lemma BeforeFirstWithout(s: string, d: char)
    requires d !in s
    ensures BeforeFirst(s, d) == s
  {
  }

  /** `pat` occurs in `s` starting at index `i`. */
  predicate OccursAt(s: string, pat: string, i: int) {
    0 <= i && i + |pat| <= |s| && s[i..i + |pat|] == pat
  }

  /** `Str::contains($s, $pat)`. */
  predicate Contains(s: string, pat: string) {
    exists i | 0 <= i <= |s| :: OccursAt(s, pat, i)
  }

  /**
   * `str_replace($pat, $rep, $s)`: scans left to right, replaces each
   * non-overlapping occurrence of `pat`, and never rescans inserted text.
   * An empty needle leaves the subject unchanged, as in PHP.
   */
  function ReplaceAll(s: string, pat: string, rep: string): string
    decreases |s|
  {
    if |pat| == 0 || |s| < |pat| then s
    else if s[..|pat|] == pat then rep + ReplaceAll(s[|pat|..], pat, rep)
    else [s[0]] + ReplaceAll(s[1..], pat, rep)
  }

  /** A subject without any occurrence of the needle comes back unchanged. */
  lemma {:induction false} ReplaceAllAbsent(s: string, pat: string, rep: string)
    requires !Contains(s, pat)
    ensures ReplaceAll(s, pat, rep) == s
    decreases |s|
  {
    if |pat| == 0 || |s| < |pat| {
    } else {
      assert !OccursAt(s, pat, 0);
      assert s[..|pat|] != pat;
      forall i | OccursAt(s[1..], pat, i)
        ensures false
      {
        assert s[1..][i..i + |pat|] == s[i + 1..i + 1 + |pat|];
        assert OccursAt(s, pat, i + 1);
      }
      ReplaceAllAbsent(s[1..], pat, rep);
    }
  }

  /** Text free of the needle's first character passes through verbatim. */
  lemma {:induction false} ReplaceAllSkipsPrefix(p: string, s: string, pat: string, rep: string)
    requires |pat| > 0 && pat[0] !in p
    ensures ReplaceAll(p + s, pat, rep) == p + ReplaceAll(s, pat, rep)
    decreases |p|
  {
    if |p| == 0 {
      assert p + s == s;
    } else {
      var t := p + s;
      if |t| < |pat| {
        ReplaceAllShort(s, pat, rep);
      } else {
        assert t[0] == p[0] != pat[0];
        assert t[..|pat|] != pat;
        assert t[1..] == p[1..] + s;
        ReplaceAllSkipsPrefix(p[1..], s, pat, rep);
      }
    }
  }

  lemma ReplaceAllShort(s: string, pat: string, rep: string)
    requires |s| < |pat|
    ensures ReplaceAll(s, pat, rep) == s
  {
  }

  /** A leading occurrence of the needle becomes the replacement. */
  lemma ReplaceAllLeading(s: string, pat: string, rep: string)
    requires |pat| > 0
    ensures ReplaceAll(pat + s, pat, rep) == rep + ReplaceAll(s, pat, rep)
  {
    assert (pat + s)[..|pat|] == pat;
    assert (pat + s)[|pat|..] == s;
  }

  /** `str_replace` with arrays of needles and replacements: one pass per pair, in order. */
  function ReplaceEach(s: string, pairs: seq<(string, string)>): string
    decreases |pairs|
  {
    if |pairs| == 0 then s
    else ReplaceEach(ReplaceAll(s, pairs[0].0, pairs[0].1), pairs[1..])
  }

  /** Two needle/replacement pairs: the second pass runs over the first pass's result. */
  lemma ReplaceEachPair(s: string, a: (string, string), b: (string, string))
    ensures ReplaceEach(s, [a, b]) == ReplaceAll(ReplaceAll(s, a.0, a.1), b.0, b.1)
  {
    var s1 := ReplaceAll(s, a.0, a.1);
    assert [a, b][0] == a && [a, b][1..] == [b];
    assert ReplaceEach(s, [a, b]) == ReplaceEach(s1, [b]);
    assert [b][0] == b && [b][1..] == [];
    assert ReplaceEach(s1, [b]) == ReplaceEach(ReplaceAll(s1, b.0, b.1), []);
  }

  /** `Str::contains` with a one-character needle is membership of that character. */
  lemma ContainsChar(s: string, c: char)
    ensures Contains(s, [c]) <==> c in s
  {
    if c in s {
      var i :| 0 <= i < |s| && s[i] == c;
      assert OccursAt(s, [c], i);
    }
    if Contains(s, [c]) {
      var i :| 0 <= i <= |s| && OccursAt(s, [c], i);
      assert s[i..i + 1][0] == s[i];
    }
  }

  /** A subject that lacks the needle's first character lacks the needle. */
  lemma FirstCharAbsent(s: string, pat: string)
    requires |pat| > 0 && pat[0] !in s
    ensures !Contains(s, pat)
  {
    forall i | 0 <= i <= |s|
      ensures !OccursAt(s, pat, i)
    {
      if i + |pat| <= |s| {
        assert s[i..i + |pat|][0] == s[i] != pat[0];
      }
    }
  }

  /** Keeps the elements that satisfy `keep`, in order (`collect(..)->filter(..)`, `array_diff`). */
  function Filter(xs: seq<string>, keep: string -> bool): (r: seq<string>)
    ensures |r| <= |xs|
    ensures forall x :: x in r <==> x in xs && keep(x)
    decreases |xs|
  {
    if |xs| == 0 then []
    else if keep(xs[0]) then [xs[0]] + Filter(xs[1..], keep)
    else Filter(xs[1..], keep)
  }

  /** `xs` is obtained from `ys` by deleting elements (order kept). */
  predicate IsSubsequence<T(==)>(xs: seq<T>, ys: seq<T>)
    decreases |ys|
  {
    if |xs| == 0 then true
    else if |ys| == 0 then false
    else if xs[0] == ys[0] then IsSubsequence(xs[1..], ys[1..])
    else IsSubsequence(xs, ys[1..])
  }

  lemma {:induction false} FilterIsSubsequence(xs: seq<string>, keep: string -> bool)
    ensures IsSubsequence(Filter(xs, keep), xs)
    decreases |xs|
  {
    if |xs| == 0 {
    } else {
      FilterIsSubsequence(xs[1..], keep);
      if keep(xs[0]) {
        assert Filter(xs, keep)[1..] == Filter(xs[1..], keep);
      } else {
        var f := Filter(xs[1..], keep);
        assert |f| > 0 ==> f[0] in f && f[0] != xs[0];
      }
    }
  }
}

=== FILE: repository.dfy ===
/**
 * The repository base classes over an abstract store of entities. The
 * newer `AbstractEloquentRepository` lets a pre-event veto `create`,
 * `update` and `delete` (an empty list of listener responses); the older
 * `EloquentRepository` fires its events but never consults the responses.
 */
module Repository {
  import opened Php
  import opened ModelEvents

  type Id = int
  type Attrs = map<string, string>

  /** The table: entity id to attributes. */
  type Store = map<Id, Attrs>

  /** `$this->events`: lifecycle stage to event class. */
  type Events = map<string, string>

  /**
   * `event(new $class(...$payload))`: the listener responses for an event
   * class built from its constructor arguments; `[]` is a veto.
   */
  type Dispatcher = (string, seq<Attrs>) -> seq<string>

  const IsDeleting: string := "IsDeleting"
  const WasDeleted: string := "WasDeleted"
  const IsUpdating: string := "IsUpdating"
  const WasUpdated: string := "WasUpdated"

  /**
   * The errors PHP raises here: instantiating the event of a stage missing
   * from `$this->events`, and calling a method on the `null` that `find`
   * returns for an unknown id.
   */
  datatype Error = UndefinedEvent(stage: string) | CallOnNull(member: string)

  datatype Result<T> = Ok(value: T) | Err(error: Error)

  /** One repository call: its result, the store afterwards, and the event classes fired, in order. */
  datatype Run<T> = Run(result: Result<T>, store: Store, fired: seq<string>)

  /** `columns($columns)`: no columns means every column. */
  function Columns(columns: seq<string>): (r: seq<string>)
    ensures |r| > 0
    ensures |columns| > 0 ==> r == columns
    ensures |columns| == 0 ==> r == ["*"]
  {
    if |columns| == 0 then ["*"] else columns
  }

  lemma ColumnsIdempotent(columns: seq<string>)
    ensures Columns(Columns(columns)) == Columns(columns)
  {
  }

  /** A pre-event is vetoed when its listeners give no response. */
  predicate Vetoed(events: Events, stage: string, payload: seq<Attrs>, dispatch: Dispatcher)
    requires stage in events
  {
    dispatch(events[stage], payload) == []
  }

  /**
   * What `create` returns: `false` on a veto, or the model instance the ORM
   * built for the attributes; `stored` tells whether its `save()` stored it.
   */
  datatype Created = Refused | Model(id: Id, stored: bool)

  /**
   * `create($attributes)`. The ORM's `create` always hands back the new
   * instance, so `if ($model)` always holds and `WasCreated` fires whether
   * or not the instance was stored. `id` is the key the instance carries
   * and `saved` what its `save()` answered.
   */
  function Create(store: Store, events: Events, dispatch: Dispatcher, attributes: Attrs, id: Id, saved: bool)
    : (r: Run<Created>)
    ensures IsCreating !in events ==> r == Run(Err(UndefinedEvent(IsCreating)), store, [])
    ensures IsCreating in events && Vetoed(events, IsCreating, [attributes], dispatch) ==>
      r == Run(Ok(Refused), store, [events[IsCreating]])
    ensures IsCreating in events && !Vetoed(events, IsCreating, [attributes], dispatch) ==>
      && |r.fired| >= 1 && r.fired[0] == events[IsCreating]
      && (saved ==> r.store == store[id := attributes])
      && (!saved ==> r.store == store)
      && (WasCreated in events ==>
            r.result == Ok(Model(id, saved)) && r.fired == [events[IsCreating], events[WasCreated]])
      && (WasCreated !in events ==> r.result == Err(UndefinedEvent(WasCreated)) && r.fired == [events[IsCreating]])
  {
    if IsCreating !in events then Run(Err(UndefinedEvent(IsCreating)), store, [])
    else if Vetoed(events, IsCreating, [attributes], dispatch) then Run(Ok(Refused), store, [events[IsCreating]])
    else
      var store' := if saved then store[id := attributes] else store;
      if WasCreated !in events then Run(Err(UndefinedEvent(WasCreated)), store', [events[IsCreating]])
      else Run(Ok(Model(id, saved)), store', [events[IsCreating], events[WasCreated]])
  }

  /**
   * The veto protocol of `create`: the store changes only after an approved
   * `IsCreating` and a successful save; `WasCreated` fires after every
   * approved `IsCreating` (when the stage is configured), and an instance
   * it reports as stored holds the attributes in the store.
   */
  lemma CreateProtocol(store: Store, events: Events, dispatch: Dispatcher, attributes: Attrs, id: Id, saved: bool)
    ensures var r := Create(store, events, dispatch, attributes, id, saved);
      r.store != store ==> IsCreating in events && !Vetoed(events, IsCreating, [attributes], dispatch) && saved
    ensures var r := Create(store, events, dispatch, attributes, id, saved);
      |r.fired| == 2 <==> IsCreating in events && WasCreated in events && !Vetoed(events, IsCreating, [attributes], dispatch)
    ensures var r := Create(store, events, dispatch, attributes, id, saved);
      r.result.Ok? && r.result.value.Model? && r.result.value.stored ==> id in r.store && r.store[id] == attributes
    ensures var r := Create(store, events, dispatch, attributes, id, saved);
      r.result == Ok(Refused) ==> r.store == store && r.fired == [events[IsCreating]]
  {
  }

  /**
   * `delete($id)`: an unknown id reaches `$model->delete()` on `null`; a
   * vetoed `IsDeleting` returns false with nothing removed; otherwise the
   * entity is removed and `WasDeleted` fires.
   */
  function Delete(store: Store, events: Events, dispatch: Dispatcher, id: Id): (r: Run<bool>)
    ensures id !in store ==> r == Run(Err(CallOnNull("delete")), store, [])
    ensures r.result == Ok(false) <==>
      id in store && IsDeleting in events && Vetoed(events, IsDeleting, [store[id]], dispatch)
    ensures r.result == Ok(false) ==> r.store == store && r.fired == [events[IsDeleting]]
    ensures r.store == store || (id in store && r.store == store - {id})
    ensures r.store != store ==>
      IsDeleting in events && !Vetoed(events, IsDeleting, [store[id]], dispatch) && |r.fired| >= 1 && r.fired[0] == events[IsDeleting]
    ensures r.result == Ok(true) <==>
      id in store && IsDeleting in events && WasDeleted in events && !Vetoed(events, IsDeleting, [store[id]], dispatch)
    ensures r.result == Ok(true) ==> r.store == store - {id} && r.fired == [events[IsDeleting], events[WasDeleted]]
  {
    if id !in store then Run(Err(CallOnNull("delete")), store, [])
    else if IsDeleting !in events then Run(Err(UndefinedEvent(IsDeleting)), store, [])
    else if Vetoed(events, IsDeleting, [store[id]], dispatch) then Run(Ok(false), store, [events[IsDeleting]])
    else
      var store' := store - {id};
      if WasDeleted !in events then Run(Err(UndefinedEvent(WasDeleted)), store', [events[IsDeleting]])
      else Run(Ok(true), store', [events[IsDeleting], events[WasDeleted]])
  }

  /**
   * `update($id, $attributes)`: the same protocol with `IsUpdating` and
   * `WasUpdated`, whose events carry both the stored entity and the new
   * attributes. `saved` is what the ORM's `save()` answers: when true the
   * given attributes are overwritten and the others kept; either way
   * `WasUpdated` fires and the answer is returned.
   */
  function Update(store: Store, events: Events, dispatch: Dispatcher, id: Id, attributes: Attrs, saved: bool)
    : (r: Run<bool>)
    ensures id !in store ==> r == Run(Err(CallOnNull("update")), store, [])
    ensures id in store && IsUpdating in events && Vetoed(events, IsUpdating, [store[id], attributes], dispatch) ==>
      r == Run(Ok(false), store, [events[IsUpdating]])
    ensures r.store == store || (id in store && saved && r.store == store[id := store[id] + attributes])
    ensures r.store != store ==>
      && IsUpdating in events && !Vetoed(events, IsUpdating, [store[id], attributes], dispatch) && saved
      && |r.fired| >= 1 && r.fired[0] == events[IsUpdating]
    ensures r.result == Ok(true) <==>
      && id in store && IsUpdating in events && WasUpdated in events && saved
      && !Vetoed(events, IsUpdating, [store[id], attributes], dispatch)
    ensures (id in store && IsUpdating in events && WasUpdated in events
             && !Vetoed(events, IsUpdating, [store[id], attributes], dispatch)) ==>
      r.result == Ok(saved) && r.fired == [events[IsUpdating], events[WasUpdated]]
  {
    if id !in store then Run(Err(CallOnNull("update")), store, [])
    else if IsUpdating !in events then Run(Err(UndefinedEvent(IsUpdating)), store, [])
    else if Vetoed(events, IsUpdating, [store[id], attributes], dispatch) then Run(Ok(false), store, [events[IsUpdating]])
    else
      var store' := if saved then store[id := store[id] + attributes] else store;
      if WasUpdated !in events then Run(Err(UndefinedEvent(WasUpdated)), store', [events[IsUpdating]])
      else Run(Ok(saved), store', [events[IsUpdating], events[WasUpdated]])
  }

  /** A veto depends on the stored entity too: one listener can refuse an update of one entity and allow the same update of another. */
  lemma UpdateVetoSeesEntity(attributes: Attrs)
    ensures var store: Store := map[1 := map["locked" := "yes"], 2 := map[]];
      var guard: Dispatcher := (c, p) => if |p| > 0 && "locked" in p[0] then [] else ["ok"];
      && Update(store, AllEvents, guard, 1, attributes, true) == Run(Ok(false), store, [AllEvents[IsUpdating]])
      && Update(store, AllEvents, guard, 2, attributes, true).result == Ok(true)
  {
    var store: Store := map[1 := map["locked" := "yes"], 2 := map[]];
    var guard: Dispatcher := (c, p) => if |p| > 0 && "locked" in p[0] then [] else ["ok"];
    assert IsUpdating in AllEvents && WasUpdated in AllEvents;
    assert Vetoed(AllEvents, IsUpdating, [store[1], attributes], guard);
    assert !Vetoed(AllEvents, IsUpdating, [store[2], attributes], guard);
  }

  /** An approved update leaves every other entity, and every attribute it does not name, as it was. */
  lemma UpdateFrame(store: Store, events: Events, dispatch: Dispatcher, id: Id, attributes: Attrs, saved: bool, other: Id, k: string)
    requires Update(store, events, dispatch, id, attributes, saved).result == Ok(true)
    ensures var s := Update(store, events, dispatch, id, attributes, saved).store;
      && s.Keys == store.Keys
      && (other != id && other in store ==> s[other] == store[other])
      && (k in attributes ==> k in s[id] && s[id][k] == attributes[k])
      && (k !in attributes && k in store[id] ==> k in s[id] && s[id][k] == store[id][k])
  {
  }

  /**
   * `deleteWhere(...)` as written: the closure receives `$result` by value,
   * so its assignment never reaches the outer variable. `matched` is the
   * sequence of entities `each` yields; every one is passed to `delete`,
   * and the answer is `true` whatever they return.
   */
  function DeleteWhereAsWritten(store: Store, events: Events, dispatch: Dispatcher, matched: seq<Id>): (r: Run<bool>)
    ensures r.result.Ok? ==> r.result.value
    decreases |matched|
  {
    if |matched| == 0 then Run(Ok(true), store, [])
    else
      var d := Delete(store, events, dispatch, matched[0]);
      if d.result.Err? then Run(Err(d.result.error), d.store, d.fired)
      else
        var rest := DeleteWhereAsWritten(d.store, events, dispatch, matched[1..]);
        Run(rest.result, rest.store, d.fired + rest.fired)
  }

  /**
   * `deleteWhere(...)` with `$result` captured by reference: once a delete
   * answers false, `$result && ...` short-circuits and no later entity is
   * deleted; the answer is the conjunction of the deletes. `matched` is,
   * as above, what `each` yields, not every entity the query matches.
   */
  function DeleteWhere(store: Store, events: Events, dispatch: Dispatcher, matched: seq<Id>): (r: Run<bool>)
    ensures r.store.Keys <= store.Keys
    ensures r.result == Ok(true) ==> forall id :: id in matched ==> id !in r.store
    decreases |matched|
  {
    if |matched| == 0 then Run(Ok(true), store, [])
    else
      var d := Delete(store, events, dispatch, matched[0]);
      if d.result.Err? then Run(Err(d.result.error), d.store, d.fired)
      else if !d.result.value then Run(Ok(false), d.store, d.fired)
      else
        var rest := DeleteWhere(d.store, events, dispatch, matched[1..]);
        assert forall id :: id in matched ==> id == matched[0] || id in matched[1..];
        Run(rest.result, rest.store, d.fired + rest.fired)
  }

  /** The corrected answer is false exactly when a yielded entity survives (a delete was vetoed). */
  lemma {:induction false} DeleteWhereReportsSurvivors(store: Store, events: Events, dispatch: Dispatcher, matched: seq<Id>)
    requires DeleteWhere(store, events, dispatch, matched).result.Ok?
    ensures var r := DeleteWhere(store, events, dispatch, matched);
      r.result.value <==> forall id :: id in matched ==> id !in r.store
    decreases |matched|
  {
    if |matched| > 0 {
      var d := Delete(store, events, dispatch, matched[0]);
      if d.result == Ok(false) {
        assert matched[0] in DeleteWhere(store, events, dispatch, matched).store;
      } else {
        DeleteWhereReportsSurvivors(d.store, events, dispatch, matched[1..]);
      }
    }
  }

  /** Both versions delete the same entities when nothing is vetoed. */
  lemma {:induction false} DeleteWhereAgreesWithoutVeto(store: Store, events: Events, dispatch: Dispatcher, matched: seq<Id>)
    requires DeleteWhere(store, events, dispatch, matched).result == Ok(true)
    ensures DeleteWhereAsWritten(store, events, dispatch, matched) == DeleteWhere(store, events, dispatch, matched)
    decreases |matched|
  {
    if |matched| > 0 {
      var d := Delete(store, events, dispatch, matched[0]);
      DeleteWhereAgreesWithoutVeto(d.store, events, dispatch, matched[1..]);
    }
  }

  /** Every event stage the repository fires, for the counterexample. */
  const AllEvents: Events := map[
    IsCreating := "IsCreatingEvent", WasCreated := "WasCreatedEvent",
    IsDeleting := "IsDeletingEvent", WasDeleted := "WasDeletedEvent",
    IsUpdating := "IsUpdatingEvent", WasUpdated := "WasUpdatedEvent"]

  /**
   * With one matched entity whose `IsDeleting` listeners give no response,
   * the entity stays, yet the as-written `deleteWhere` answers true; the
   * corrected one answers false.
   */
  lemma DeleteWhereAlwaysTrue()
    ensures var store: Store := map[1 := map[]];
      var veto: Dispatcher := (c, p) => [];
      && DeleteWhereAsWritten(store, AllEvents, veto, [1]) == Run(Ok(true), store, [AllEvents[IsDeleting]])
      && DeleteWhere(store, AllEvents, veto, [1]) == Run(Ok(false), store, [AllEvents[IsDeleting]])
  {
    var store: Store := map[1 := map[]];
    var veto: Dispatcher := (c, p) => [];
    assert IsDeleting in AllEvents;
    assert Vetoed(AllEvents, IsDeleting, [store[1]], veto);
    assert [1][1..] == [];
    assert [AllEvents[IsDeleting]] + [] == [AllEvents[IsDeleting]];
  }

  /** A query the ORM runs: order, limit and selected columns. */
  datatype Query = Query(orderColumn: string, direction: string, limit: nat, columns: seq<string>)

  /** `first(...$columns)`: the earliest created entity. */
  function First(columns: seq<string>): Query {
    Query("created_at", "asc", 1, Columns(columns))
  }

  /** `last(...$columns)`: the latest created entity. */
  function Last(columns: seq<string>): Query {
    Query("created_at", "desc", 1, Columns(columns))
  }

  /** `first` and `last` read one row from opposite ends of `created_at`, with the same columns. */
  lemma FirstLastMirror(columns: seq<string>)
    ensures First(columns).limit == 1 && Last(columns).limit == 1
    ensures First(columns).orderColumn == Last(columns).orderColumn == "created_at"
    ensures First(columns).direction == "asc" && Last(columns).direction == "desc"
    ensures First(columns).columns == Last(columns).columns == Columns(columns)
  {
  }

  /** The selected columns of an entity; `*` selects all. */
  function Project(attrs: Attrs, columns: seq<string>): (r: Attrs)
    ensures "*" in columns ==> r == attrs
    ensures "*" !in columns ==> r.Keys == attrs.Keys * (set c | c in columns)
    ensures forall k :: k in r ==> r[k] == attrs[k]
  {
    if "*" in columns then attrs else map k | k in attrs && k in columns :: attrs[k]
  }

  /** `find($id, ...$columns)`: the entity with the `columns()` selection, or null. */
  function Find(store: Store, id: Id, columns: seq<string>): (r: Option<Attrs>)
    ensures r.None? <==> id !in store
    ensures r.Some? ==> r.value == Project(store[id], Columns(columns))
  {
    if id in store then Some(Project(store[id], Columns(columns))) else None
  }

  /**
   * The `where($field, $value)` test on one entity. A `null` value becomes
   * `whereNull`, met by an entity without the field; any other value is
   * compared as an exact string.
   */
  predicate FieldMatches(attrs: Attrs, field: string, value: Option<string>) {
    match value
    case None => field !in attrs
    case Some(v) => field in attrs && attrs[field] == v
  }

  /**
   * `findBy($field, $value = null, ...$columns)`: every entity that meets
   * the test, with the selection.
   */
  function FindBy(store: Store, field: string, value: Option<string>, columns: seq<string>): (r: map<Id, Attrs>)
    ensures value.None? ==> forall id :: id in r <==> id in store && field !in store[id]
    ensures value.Some? ==> forall id :: id in r <==> id in store && field in store[id] && store[id][field] == value.value
    ensures forall id :: id in r ==> r[id] == Project(store[id], Columns(columns))
  {
    map id | id in store && FieldMatches(store[id], field, value) :: Project(store[id], Columns(columns))
  }

  /**
   * Each entity is found by exactly one value of the field: `null` when it
   * lacks the field, and its own value otherwise.
   */
  lemma FindByPartitions(store: Store, field: string, id: Id, value: Option<string>)
    requires id in store
    ensures id in FindBy(store, field, value, []) <==>
      value == (if field in store[id] then Some(store[id][field]) else None)
  {
  }

  /** Asking for no columns returns whole entities. */
  lemma NoColumnsSelectsAll(store: Store, id: Id, field: string, value: Option<string>)
    ensures id in store ==> Find(store, id, []) == Some(store[id])
    ensures forall i :: i in FindBy(store, field, value, []) ==> FindBy(store, field, value, [])[i] == store[i]
  {
    assert "*" in Columns([]);
  }
}

/** The older `EloquentRepository`: events are fired, their responses are not consulted. */
module LegacyRepository {
  import opened Php
  import opened ModelEvents
  import opened Repository

  /**
   * `create($attributes)`: `IsCreating` fires, the ORM builds and saves the
   * instance, then `WasCreated` fires. No dispatcher is consulted: nothing
   * can refuse. `saved` is what the instance's `save()` answered.
   */
  function Create(store: Store, events: Events, attributes: Attrs, id: Id, saved: bool): (r: Run<Created>)
    ensures IsCreating in events && WasCreated in events ==>
      && r.result == Ok(Model(id, saved))
      && r.fired == [events[IsCreating], events[WasCreated]]
    ensures IsCreating !in events ==> r.store == store && r.fired == [] && r.result.Err?
    ensures IsCreating in events ==> (saved ==> r.store == store[id := attributes]) && (!saved ==> r.store == store)
    ensures r.result != Ok(Refused)
  {
    if IsCreating !in events then Run(Err(UndefinedEvent(IsCreating)), store, [])
    else
      var store' := if saved then store[id := attributes] else store;
      if WasCreated !in events then Run(Err(UndefinedEvent(WasCreated)), store', [events[IsCreating]])
      else Run(Ok(Model(id, saved)), store', [events[IsCreating], events[WasCreated]])
  }

  /**
   * Where the newer repository refuses a vetoed create, the older one
   * stores the entity all the same.
   */
  lemma VetoOnlyInNewerRepository(store: Store, attributes: Attrs, id: Id)
    ensures var veto: Dispatcher := (c, p) => [];
      && Repository.Create(store, AllEvents, veto, attributes, id, true) == Run(Ok(Refused), store, [AllEvents[IsCreating]])
      && Create(store, AllEvents, attributes, id, true).store == store[id := attributes]
  {
    var veto: Dispatcher := (c, p) => [];
    assert IsCreating in AllEvents && WasCreated in AllEvents;
    assert Vetoed(AllEvents, IsCreating, [attributes], veto);
  }
}

=== FILE: repository_command.dfy ===
/**
 * `make:repository` (the older package): upper-case the model name's first
 * letter and write six classes from stubs, overwriting whatever is there.
 * `file_put_contents` makes no folder: a write into a missing folder raises
 * an error, which stops the command with the earlier writes done.
 */
module RepositoryCommand {
  import opened Php
  import opened Stubs

  /** One `file_put_contents` call. */
  datatype Write = Write(path: string, content: string)

  /** The (stub, target folder) pairs `handle()` writes, in order. */
  const Artifacts: seq<(string, string)> := [
    ("RepositoryInterface", "Interfaces"),
    ("Repository", "Repositories"),
    ("IsCreatingEvent", "Events"),
    ("WasCreatedEvent", "Events"),
    ("IsCreatingListener", "Listeners"),
    ("WasCreatedListener", "Listeners")
  ]

  /** `str_replace(['{{modelName}}'], [$modelName], $stub)`. */
  function Render(stubText: string, modelName: string): string {
    ReplaceAll(stubText, Token("modelName"), modelName)
  }

  /** `makeClass($stub, $target)`, with `stubs(stub)` the stub's text: the path is `app_path('/' . target . '/' . model . stub . '.php')`. */
  function MakeClass(modelName: string, stub: string, target: string, stubs: string -> string, appPath: string -> string): Write {
    Write(appPath("/" + target + "/" + modelName + stub + ".php"), Render(stubs(stub), modelName))
  }

  /** The relative path `makeClass` hands to `app_path` for artifact `i`. */
  function RelativePath(name: string, i: int): string
    requires 0 <= i < |Artifacts|
  {
    "/" + Artifacts[i].1 + "/" + name + Artifacts[i].0 + ".php"
  }

  /**
   * `handle()`: the interface, the repository, the two events and the two
   * listeners, in that order, all for `ucfirst($model)`.
   */
  function Handle(argument: string, stubs: string -> string, appPath: string -> string): (ws: seq<Write>)
    ensures |ws| == |Artifacts|
    ensures forall i :: 0 <= i < |ws| ==>
      && ws[i].path == appPath(RelativePath(Ucfirst(argument), i))
      && ws[i].content == Render(stubs(Artifacts[i].0), Ucfirst(argument))
  {
    var name := Ucfirst(argument);
    seq(|Artifacts|, i requires 0 <= i < |Artifacts| => MakeClass(name, Artifacts[i].0, Artifacts[i].1, stubs, appPath))
  }

  /** Performs the writes in order; a later write to a path replaces an earlier one. */
  function PutAll(files: map<string, string>, ws: seq<Write>): (r: map<string, string>)
    ensures forall w :: w in ws ==> w.path in r
    ensures forall p :: p in files ==> p in r
    decreases |ws|
  {
    if |ws| == 0 then files
    else PutAll(files[ws[0].path := ws[0].content], ws[1..])
  }

  /** The folder a file lives in: the text before the path's last `/`, or "" when there is none. */
  function FolderOf(path: string): (d: string)
    ensures '/' in path ==> |d| < |path| && path[..|d|] == d && path[|d|] == '/' && '/' !in path[|d| + 1..]
    ensures '/' !in path ==> d == ""
    decreases |path|
  {
    if |path| == 0 then ""
    else if path[|path| - 1] == '/' then path[..|path| - 1]
    else
      var front := path[..|path| - 1];
      assert '/' in path <==> '/' in front by {
        assert path == front + [path[|path| - 1]];
      }
      var d := FolderOf(front);
      assert '/' in front ==> path[|d| + 1..] == front[|d| + 1..] + [path[|path| - 1]];
      d
  }

  /** How the command ends: every write done, or stopped by the write that failed. */
  datatype Outcome = Done(files: map<string, string>) | Stopped(files: map<string, string>, failed: string)

  /**
   * The writes `handle()` performs against the folders `dirs` that exist:
   * each one succeeds when its folder exists; the first that does not
   * raises the error that ends the command.
   */
  function Run(files: map<string, string>, dirs: set<string>, ws: seq<Write>): (r: Outcome)
    ensures r.Done? <==> forall j :: 0 <= j < |ws| ==> FolderOf(ws[j].path) in dirs
    ensures r.Done? ==> r.files == PutAll(files, ws)
    ensures r.Stopped? ==> FolderOf(r.failed) !in dirs
    ensures files.Keys <= r.files.Keys
    decreases |ws|
  {
    if |ws| == 0 then Done(files)
    else if FolderOf(ws[0].path) !in dirs then Stopped(files, ws[0].path)
    else
      var r := Run(files[ws[0].path := ws[0].content], dirs, ws[1..]);
      assert forall j :: 1 <= j < |ws| ==> ws[j] == ws[1..][j - 1];
      r
  }

  /** The position of the first write whose folder is missing, or the number of writes. */
  function FirstMissing(dirs: set<string>, ws: seq<Write>): (k: nat)
    ensures k <= |ws|
    ensures forall j :: 0 <= j < k ==> FolderOf(ws[j].path) in dirs
    ensures k < |ws| ==> FolderOf(ws[k].path) !in dirs
    decreases |ws|
  {
    if |ws| == 0 || FolderOf(ws[0].path) !in dirs then 0
    else
      var k := FirstMissing(dirs, ws[1..]);
      assert forall j :: 1 <= j < k + 1 ==> ws[j] == ws[1..][j - 1];
      k + 1
  }

  /** A stopped run has done exactly the writes before the first one whose folder is missing. */
  lemma {:induction false} RunStopsAtFirstMissing(files: map<string, string>, dirs: set<string>, ws: seq<Write>)
    ensures var k := FirstMissing(dirs, ws);
      Run(files, dirs, ws) == if k == |ws| then Done(PutAll(files, ws)) else Stopped(PutAll(files, ws[..k]), ws[k].path)
    decreases |ws|
  {
    if |ws| > 0 && FolderOf(ws[0].path) in dirs {
      var f1 := files[ws[0].path := ws[0].content];
      RunStopsAtFirstMissing(f1, dirs, ws[1..]);
      var k := FirstMissing(dirs, ws[1..]);
      if k < |ws[1..]| {
        assert ws[..k + 1][1..] == ws[1..][..k];
        assert ws[..k + 1][0] == ws[0];
        assert PutAll(files, ws[..k + 1]) == PutAll(f1, ws[1..][..k]);
      }
    } else if |ws| > 0 {
      assert ws[..0] == [];
    }
  }

  /** The writes act as one overlay on whatever was there. */
  lemma {:induction false} PutAllIsOverlay(files: map<string, string>, ws: seq<Write>)
    ensures PutAll(files, ws) == files + PutAll(map[], ws)
    decreases |ws|
  {
    if |ws| > 0 {
      var w := ws[0];
      PutAllIsOverlay(files[w.path := w.content], ws[1..]);
      PutAllIsOverlay(map[w.path := w.content], ws[1..]);
      var rest := PutAll(map[], ws[1..]);
      assert files[w.path := w.content] + rest == files + (map[w.path := w.content] + rest);
    }
  }

  /**
   * Running the command twice leaves the files as running it once, whether
   * the first run finished or stopped: the second run stops at the same write.
   */
  lemma HandleIdempotent(files: map<string, string>, dirs: set<string>, argument: string, stubs: string -> string,
                         appPath: string -> string)
    ensures var ws := Handle(argument, stubs, appPath);
      Run(Run(files, dirs, ws).files, dirs, ws) == Run(files, dirs, ws)
  {
    var ws := Handle(argument, stubs, appPath);
    var k := FirstMissing(dirs, ws);
    var done := if k == |ws| then ws else ws[..k];
    RunStopsAtFirstMissing(files, dirs, ws);
    var once := PutAll(files, done);
    RunStopsAtFirstMissing(once, dirs, ws);
    PutAllIsOverlay(files, done);
    PutAllIsOverlay(once, done);
    var o := PutAll(map[], done);
    assert (files + o) + o == files + o;
  }

  /** A write no later write shadows determines the file's final contents. */
  lemma {:induction false} LastWriteWins(files: map<string, string>, ws: seq<Write>, i: int)
    requires 0 <= i < |ws|
    requires forall j :: i < j < |ws| ==> ws[j].path != ws[i].path
    ensures PutAll(files, ws)[ws[i].path] == ws[i].content
    decreases |ws|
  {
    if i > 0 {
      LastWriteWins(files[ws[0].path := ws[0].content], ws[1..], i - 1);
    } else {
      Untouched(files[ws[0].path := ws[0].content], ws[1..], ws[0].path);
    }
  }

  /** A path no write names keeps its contents. */
  lemma {:induction false} Untouched(files: map<string, string>, ws: seq<Write>, p: string)
    requires p in files
    requires forall j :: 0 <= j < |ws| ==> ws[j].path != p
    ensures PutAll(files, ws)[p] == files[p]
    decreases |ws|
  {
    if |ws| > 0 {
      Untouched(files[ws[0].path := ws[0].content], ws[1..], p);
    }
  }

  /** The six relative paths differ (folder, then stub name, tell them apart). */
  lemma RelativePathsDistinct(name: string, i: int, j: int)
    requires 0 <= i < j < |Artifacts|
    ensures RelativePath(name, i) != RelativePath(name, j)
  {
    var a, b := RelativePath(name, i), RelativePath(name, j);
    if Artifacts[i].1 != Artifacts[j].1 {
      assert a[1] == Artifacts[i].1[0] && b[1] == Artifacts[j].1[0];
    } else {
      var k := 2 + |Artifacts[i].1| + |name|;
      assert a[k] == Artifacts[i].0[0] && b[k] == Artifacts[j].0[0];
    }
  }

  /** The folder each of the six classes is written into exists. */
  predicate FoldersExist(dirs: set<string>, name: string, appPath: string -> string) {
    forall k :: 0 <= k < |Artifacts| ==> FolderOf(appPath(RelativePath(name, k))) in dirs
  }

  /** The command finishes iff the folder of each of the six classes exists. */
  lemma HandleFinishesIffFoldersExist(files: map<string, string>, dirs: set<string>, argument: string,
                                      stubs: string -> string, appPath: string -> string)
    ensures Run(files, dirs, Handle(argument, stubs, appPath)).Done? <==> FoldersExist(dirs, Ucfirst(argument), appPath)
  {
    var ws := Handle(argument, stubs, appPath);
    assert forall j :: 0 <= j < |ws| ==> ws[j].path == appPath(RelativePath(Ucfirst(argument), j));
  }

  /**
   * With an `app_path` that keeps distinct paths apart and the six folders
   * present, every one of the six classes ends up with its rendered stub.
   */
  lemma HandleWritesEveryClass(files: map<string, string>, dirs: set<string>, argument: string, stubs: string -> string,
                               appPath: string -> string, i: int)
    requires forall x, y :: x != y ==> appPath(x) != appPath(y)
    requires FoldersExist(dirs, Ucfirst(argument), appPath)
    requires 0 <= i < |Artifacts|
    ensures Run(files, dirs, Handle(argument, stubs, appPath)).Done?
    ensures Run(files, dirs, Handle(argument, stubs, appPath)).files[appPath(RelativePath(Ucfirst(argument), i))]
         == Render(stubs(Artifacts[i].0), Ucfirst(argument))
  {
    var ws := Handle(argument, stubs, appPath);
    var name := Ucfirst(argument);
    HandleFinishesIffFoldersExist(files, dirs, argument, stubs, appPath);
    assert ws[i].path == appPath(RelativePath(name, i));
    forall j | i < j < |ws|
      ensures ws[j].path != ws[i].path
    {
      RelativePathsDistinct(name, i, j);
      assert ws[j].path == appPath(RelativePath(name, j));
    }
    LastWriteWins(files, ws, i);
  }

  /** Files outside the six class paths keep their contents, however the command ends. */
  lemma HandleKeepsOtherFiles(files: map<string, string>, dirs: set<string>, argument: string, stubs: string -> string,
                              appPath: string -> string, p: string)
    requires p in files
    requires forall k :: 0 <= k < |Artifacts| ==> p != appPath(RelativePath(Ucfirst(argument), k))
    ensures Run(files, dirs, Handle(argument, stubs, appPath)).files[p] == files[p]
  {
    var ws := Handle(argument, stubs, appPath);
    forall j | 0 <= j < |ws|
      ensures ws[j].path != p
    {
      assert ws[j].path == appPath(RelativePath(Ucfirst(argument), j));
    }
    RunStopsAtFirstMissing(files, dirs, ws);
    var k := FirstMissing(dirs, ws);
    Untouched(files, ws, p);
    Untouched(files, ws[..k], p);
  }

  /**
   * Without the `Interfaces` folder nothing is written: the first write
   * fails and the command stops there.
   */
  lemma MissingInterfacesFolderStops(files: map<string, string>, dirs: set<string>, argument: string,
                                     stubs: string -> string, appPath: string -> string)
    requires FolderOf(appPath(RelativePath(Ucfirst(argument), 0))) !in dirs
    ensures Run(files, dirs, Handle(argument, stubs, appPath)) == Stopped(files, appPath(RelativePath(Ucfirst(argument), 0)))
  {
  }

  /**
   * The writes as the package's configuration promises them ("folders will
   * be automatically created"): each write first makes its folder, so
   * every write is done and the made folders join `dirs`.
   */
  function RunMakingFolders(files: map<string, string>, dirs: set<string>, ws: seq<Write>): (r: (Outcome, set<string>))
    ensures r.1 == dirs + set j | 0 <= j < |ws| :: FolderOf(ws[j].path)
    ensures r.0 == Run(files, r.1, ws)
    ensures r.0 == Done(PutAll(files, ws))
  {
    var made := dirs + set j | 0 <= j < |ws| :: FolderOf(ws[j].path);
    (Run(files, made, ws), made)
  }

  /** With folders made on demand, every one of the six classes is written, whatever folders existed. */
  lemma MakingFoldersWritesEveryClass(files: map<string, string>, dirs: set<string>, argument: string,
                                      stubs: string -> string, appPath: string -> string, i: int)
    requires forall x, y :: x != y ==> appPath(x) != appPath(y)
    requires 0 <= i < |Artifacts|
    ensures var ws := Handle(argument, stubs, appPath);
      RunMakingFolders(files, dirs, ws).0.files[appPath(RelativePath(Ucfirst(argument), i))]
        == Render(stubs(Artifacts[i].0), Ucfirst(argument))
  {
    var ws := Handle(argument, stubs, appPath);
    var made := RunMakingFolders(files, dirs, ws).1;
    assert forall j :: 0 <= j < |ws| ==> ws[j].path == appPath(RelativePath(Ucfirst(argument), j));
    HandleWritesEveryClass(files, made, argument, stubs, appPath, i);
  }

  /**
   * Read as a template, each class fills `{{modelName}}` with the
   * `ucfirst`-ed name; other placeholders and literal text are kept.
   */
  lemma RenderFillsTemplate(t: Template, argument: string)
    requires WellFormed(t)
    ensures Render(Flatten(t), Ucfirst(argument)) == Flatten(Fill(t, "modelName", Ucfirst(argument)))
  {
    assert ValidName("modelName");
    ReplaceIsFill(t, "modelName", Ucfirst(argument));
  }
}

=== FILE: requests.dfy ===
/**
 * What the getter and filter classes read from a request: the `filter`
 * array, `sort_by`, `sort_order` and `per_page`, and the method lists of the
 * concrete class and of the package's base class.
 */
module Requests {
  import opened Php

  /** An ordered PHP array from string keys to string values. */
  type Assoc = seq<(string, string)>

  predicate DistinctKeys(a: Assoc) {
    forall i, j :: 0 <= i < j < |a| ==> a[i].0 != a[j].0
  }

  predicate HasEntry(a: Assoc, k: string, v: string) {
    exists i :: 0 <= i < |a| && a[i] == (k, v)
  }

  /** A request: its `filter` array and its scalar parameters. */
  datatype Request = Request(filter: Assoc, params: map<string, string>)

  /** `$request->get($key, $default)`. */
  function Get(req: Request, key: string, default: string): (r: string)
    ensures key in req.params ==> r == req.params[key]
    ensures key !in req.params ==> r == default
  {
    if key in req.params then req.params[key] else default
  }

  /** `paginate()`'s page size: `per_page`, or 20. */
  function PerPage(req: Request): string {
    Get(req, "per_page", "20")
  }

  /** Both classes page by 20 rows unless the request says otherwise. */
  lemma PerPageDefault(req: Request)
    ensures "per_page" !in req.params ==> PerPage(req) == "20"
    ensures "per_page" in req.params ==> PerPage(req) == req.params["per_page"]
  {
  }

  /**
   * `array_diff(get_class_methods(static::class), get_class_methods(self::class))`:
   * the concrete class's own methods, in declaration order.
   */
  function FilterMethods(classMethods: seq<string>, baseMethods: seq<string>): (r: seq<string>)
    ensures forall m :: m in r <==> m in classMethods && m !in baseMethods
    ensures IsSubsequence(r, classMethods)
  {
    FilterIsSubsequence(classMethods, m => m !in baseMethods);
    Filter(classMethods, m => m !in baseMethods)
  }

  /** `collect($a)->only($keys)`: the entries whose key is listed, in the array's own order. */
  function OnlyKeys(a: Assoc, keys: seq<string>): (r: Assoc)
    ensures forall k, v :: HasEntry(r, k, v) <==> HasEntry(a, k, v) && k in keys
    ensures DistinctKeys(a) ==> DistinctKeys(r)
    ensures IsSubsequence(r, a)
    decreases |a|
  {
    if |a| == 0 then []
    else
      var rest := OnlyKeys(a[1..], keys);
      HasEntryCons(a);
      if a[0].0 in keys then
        var r := [a[0]] + rest;
        HasEntryCons(r);
        assert r[1..] == rest;
        if DistinctKeys(a) then
          ConsKeepsDistinct(a, rest);
          r
        else
          r
      else
        rest
  }

  /**
   * Putting an array's head in front of entries taken from its tail keeps
   * the keys distinct.
   */
  lemma ConsKeepsDistinct(a: Assoc, rest: Assoc)
    requires |a| > 0 && DistinctKeys(a) && DistinctKeys(rest)
    requires forall k, v :: HasEntry(rest, k, v) ==> HasEntry(a[1..], k, v)
    ensures DistinctKeys([a[0]] + rest)
  {
    var r := [a[0]] + rest;
    forall i, j | 0 <= i < j < |r| ensures r[i].0 != r[j].0 {
      if i == 0 {
        assert HasEntry(rest, r[j].0, r[j].1) by { assert rest[j - 1] == r[j]; }
        var m :| 0 <= m < |a[1..]| && a[1..][m] == r[j];
        assert a[m + 1] == r[j];
      } else {
        assert r[i] == rest[i - 1] && r[j] == rest[j - 1];
      }
    }
  }

  /** An array's entries are its head and its tail's entries. */
  lemma HasEntryCons(a: Assoc)
    requires |a| > 0
    ensures forall k, v :: HasEntry(a, k, v) <==> a[0] == (k, v) || HasEntry(a[1..], k, v)
  {
    forall k, v | HasEntry(a[1..], k, v) ensures HasEntry(a, k, v) {
      var i :| 0 <= i < |a[1..]| && a[1..][i] == (k, v);
      assert a[i + 1] == (k, v);
    }
    forall k, v | HasEntry(a, k, v) && a[0] != (k, v) ensures HasEntry(a[1..], k, v) {
      var i :| 0 <= i < |a| && a[i] == (k, v);
      assert a[1..][i - 1] == (k, v);
    }
  }
}

/** `EloquentGetter` (the older package's getter base class). */
module GetterQuery {
  import opened Php
  import opened Requests

  /**
   * `$array[$k] = $v` on an ordered PHP array: an existing key keeps its
   * position and takes the new value; a new key is appended.
   */
  function Put(a: Assoc, k: string, v: string): (r: Assoc)
    requires DistinctKeys(a)
    ensures DistinctKeys(r)
    ensures HasEntry(r, k, v)
    ensures forall k2, v2 :: k2 != k ==> (HasEntry(r, k2, v2) <==> HasEntry(a, k2, v2))
    ensures forall v2 :: HasEntry(r, k, v2) ==> v2 == v
    ensures |r| <= |a| + 1
  {
    if exists i :: 0 <= i < |a| && a[i].0 == k then
      var i :| 0 <= i < |a| && a[i].0 == k;
      var r := a[i := (k, v)];
      assert r[i] == (k, v);
      forall k2, v2 | k2 != k ensures HasEntry(r, k2, v2) <==> HasEntry(a, k2, v2) {
        if HasEntry(a, k2, v2) {
          var j :| 0 <= j < |a| && a[j] == (k2, v2);
          assert r[j] == (k2, v2);
        }
        if HasEntry(r, k2, v2) {
          var j :| 0 <= j < |r| && r[j] == (k2, v2);
          assert a[j] == (k2, v2);
        }
      }
      r
    else
      var r := a + [(k, v)];
      assert r[|a|] == (k, v);
      forall k2, v2 | HasEntry(a, k2, v2) ensures HasEntry(r, k2, v2) {
        var j :| 0 <= j < |a| && a[j] == (k2, v2);
        assert r[j] == (k2, v2);
      }
      r
  }

  /** `mapWithKeys(fn ($value, $key) => [rename($key) => $value])`. */
  function MapWithKeys(a: Assoc, rename: string -> string, acc: Assoc): (r: Assoc)
    requires DistinctKeys(acc)
    ensures DistinctKeys(r)
    decreases |a|
  {
    if |a| == 0 then acc
    else MapWithKeys(a[1..], rename, Put(acc, rename(a[0].0), a[0].1))
  }

  /** The filter method a request key asks for: `camel(key) . 'Filter'`. */
  function FilterMethodFor(camel: string -> string, key: string): string {
    camel(key) + "Filter"
  }

  /**
   * `getFilters()`: request filters renamed to their methods, keeping only
   * the class's own methods. When two keys rename to the same method, the
   * later value wins at the earlier position.
   */
  function GetFilters(req: Request, camel: string -> string, classMethods: seq<string>, baseMethods: seq<string>)
    : (r: Assoc)
    ensures DistinctKeys(r)
    ensures forall m, v :: HasEntry(r, m, v) ==> m in classMethods && m !in baseMethods
  {
    var renamed := MapWithKeys(req.filter, k => FilterMethodFor(camel, k), []);
    OnlyKeys(renamed, FilterMethods(classMethods, baseMethods))
  }

  /** Every entry of the renamed array comes from a request entry with the same value. */
  lemma {:induction false} MapWithKeysSound(a: Assoc, rename: string -> string, acc: Assoc, m: string, v: string)
    requires DistinctKeys(acc)
    requires HasEntry(MapWithKeys(a, rename, acc), m, v)
    ensures HasEntry(acc, m, v) || exists k :: HasEntry(a, k, v) && rename(k) == m
    decreases |a|
  {
    if |a| > 0 {
      var acc' := Put(acc, rename(a[0].0), a[0].1);
      MapWithKeysSound(a[1..], rename, acc', m, v);
      HasEntryCons(a);
      if HasEntry(acc', m, v) && !HasEntry(acc, m, v) {
        assert m == rename(a[0].0) && v == a[0].1;
        assert HasEntry(a, a[0].0, v);
      }
    }
  }

  /** A request entry whose method no later key also asks for arrives with its own value. */
  lemma {:induction false} MapWithKeysComplete(a: Assoc, rename: string -> string, acc: Assoc, i: int)
    requires DistinctKeys(acc)
    requires 0 <= i < |a|
    requires forall j :: i < j < |a| ==> rename(a[j].0) != rename(a[i].0)
    ensures HasEntry(MapWithKeys(a, rename, acc), rename(a[i].0), a[i].1)
    decreases |a|
  {
    var acc' := Put(acc, rename(a[0].0), a[0].1);
    if i > 0 {
      MapWithKeysComplete(a[1..], rename, acc', i - 1);
    } else {
      MapWithKeysKeeps(a[1..], rename, acc', rename(a[0].0), a[0].1);
    }
  }

  /** A key no later request entry renames to keeps its entry. */
  lemma {:induction false} MapWithKeysKeeps(a: Assoc, rename: string -> string, acc: Assoc, m: string, v: string)
    requires DistinctKeys(acc) && HasEntry(acc, m, v)
    requires forall j :: 0 <= j < |a| ==> rename(a[j].0) != m
    ensures HasEntry(MapWithKeys(a, rename, acc), m, v)
    decreases |a|
  {
    if |a| > 0 {
      MapWithKeysKeeps(a[1..], rename, Put(acc, rename(a[0].0), a[0].1), m, v);
    }
  }

  /**
   * The filters applied are exactly right: each applied (method, value)
   * comes from a request key renamed to a filter method; and a request key
   * whose method is a filter method, and which no later key shadows, is applied with its value.
   */
  lemma GetFiltersExact(req: Request, camel: string -> string, classMethods: seq<string>, baseMethods: seq<string>,
                        m: string, v: string, i: int)
    ensures HasEntry(GetFilters(req, camel, classMethods, baseMethods), m, v) ==>
      exists k :: HasEntry(req.filter, k, v) && FilterMethodFor(camel, k) == m
    ensures 0 <= i < |req.filter|
         && FilterMethodFor(camel, req.filter[i].0) in classMethods
         && FilterMethodFor(camel, req.filter[i].0) !in baseMethods
         && (forall j :: i < j < |req.filter| ==> FilterMethodFor(camel, req.filter[j].0) != FilterMethodFor(camel, req.filter[i].0))
         ==> HasEntry(GetFilters(req, camel, classMethods, baseMethods), FilterMethodFor(camel, req.filter[i].0), req.filter[i].1)
  {
    var rename := k => FilterMethodFor(camel, k);
    var renamed := MapWithKeys(req.filter, rename, []);
    if HasEntry(GetFilters(req, camel, classMethods, baseMethods), m, v) {
      MapWithKeysSound(req.filter, rename, [], m, v);
    }
    if 0 <= i < |req.filter|
       && FilterMethodFor(camel, req.filter[i].0) in classMethods
       && FilterMethodFor(camel, req.filter[i].0) !in baseMethods
       && (forall j :: i < j < |req.filter| ==> FilterMethodFor(camel, req.filter[j].0) != FilterMethodFor(camel, req.filter[i].0)) {
      MapWithKeysComplete(req.filter, rename, [], i);
    }
  }

  /** `filter()`: each surviving filter method is called once, with its value, in the array's order. */
  function FilterCalls(req: Request, camel: string -> string, classMethods: seq<string>, baseMethods: seq<string>)
    : (calls: seq<(string, string)>)
    ensures forall i, j :: 0 <= i < j < |calls| ==> calls[i].0 != calls[j].0
    ensures forall m, v :: HasEntry(calls, m, v) <==> HasEntry(GetFilters(req, camel, classMethods, baseMethods), m, v)
  {
    GetFilters(req, camel, classMethods, baseMethods)
  }

  /** What `orderBy` receives as its first argument: a sorter method's builder, or a column. */
  datatype SortKey = SorterBuilder(sorter: string) | Column(name: string)

  /** The calls `order()` makes: sorter methods invoked, and the `orderBy` added. */
  datatype Action = CallSorter(sorter: string) | OrderBy(key: SortKey, direction: string)

  /** The sorter method `sort_by` asks for: `camel(sort_by) . 'Sorter'` (a missing `sort_by` camel-cases ""). */
  function SorterMethodName(req: Request, camel: string -> string): string {
    camel(Get(req, "sort_by", "")) + "Sorter"
  }

  /**
   * `getSorterMethod()`: the trace of the call and its result. The method
   * runs when it exists; `returnsBuilder` tells whether it returns the
   * builder (truthy) or null.
   */
  function GetSorterMethod(req: Request, camel: string -> string, hasMethod: string -> bool, returnsBuilder: string -> bool)
    : (r: (seq<Action>, Option<SortKey>))
    ensures r.1.Some? <==> hasMethod(SorterMethodName(req, camel)) && returnsBuilder(SorterMethodName(req, camel))
    ensures r.1.Some? ==> r.1.value == SorterBuilder(SorterMethodName(req, camel))
    ensures |r.0| <= 1
    ensures |r.0| == 1 <==> hasMethod(SorterMethodName(req, camel))
  {
    var m := SorterMethodName(req, camel);
    if !hasMethod(m) then ([], None)
    else if returnsBuilder(m) then ([CallSorter(m)], Some(SorterBuilder(m)))
    else ([CallSorter(m)], None)
  }

  /** `getSorterColumn()`: `sort_by` (default `id`) when the table has that column. */
  function GetSorterColumn(req: Request, hasColumn: string -> bool): (r: Option<string>)
    ensures r.Some? <==> hasColumn(Get(req, "sort_by", "id"))
    ensures r.Some? ==> r.value == Get(req, "sort_by", "id")
  {
    var column := Get(req, "sort_by", "id");
    if hasColumn(column) then Some(column) else None
  }

  /**
   * `order()`: `$sortBy = getSorterMethod() ?: getSorterColumn()`; when that
   * is truthy, `orderBy(getSorterMethod() ?: sort_by ?? 'id', sort_order ?? 'asc')`.
   */
  function Order(req: Request, camel: string -> string, hasMethod: string -> bool,
                 returnsBuilder: string -> bool, hasColumn: string -> bool): (r: seq<Action>)
    ensures forall a :: a in r && a.CallSorter? ==> a.sorter == SorterMethodName(req, camel) && hasMethod(a.sorter)
    ensures (exists a :: a in r && a.OrderBy?) <==>
      || (hasMethod(SorterMethodName(req, camel)) && returnsBuilder(SorterMethodName(req, camel)))
      || (hasColumn(Get(req, "sort_by", "id")) && Truthy(Get(req, "sort_by", "id")))
    ensures forall a :: a in r && a.OrderBy? ==>
      && a.direction == Get(req, "sort_order", "asc")
      && a.key == (if hasMethod(SorterMethodName(req, camel)) && returnsBuilder(SorterMethodName(req, camel))
                   then SorterBuilder(SorterMethodName(req, camel))
                   else Column(Get(req, "sort_by", "id")))
  {
    var (first, sorter) := GetSorterMethod(req, camel, hasMethod, returnsBuilder);
    var sortBy := if sorter.Some? then true
                  else var col := GetSorterColumn(req, hasColumn); col.Some? && Truthy(col.value);
    if !sortBy then first
    else
      var (second, sorter2) := GetSorterMethod(req, camel, hasMethod, returnsBuilder);
      var key := if sorter2.Some? then sorter2.value else Column(Get(req, "sort_by", "id"));
      var r := first + second + [OrderBy(key, Get(req, "sort_order", "asc"))];
      assert r[|r| - 1] in r;
      r
  }

  /** `order()` adds at most one `orderBy`, always as its last call. */
  predicate OrdersAtEnd(actions: seq<Action>) {
    forall i :: 0 <= i < |actions| - 1 ==> actions[i].CallSorter?
  }

  /**
   * No `orderBy` is added when no sorter returns a builder and `sort_by`
   * (default `id`) is not a truthy column.
   */
  lemma OrderSkipped(req: Request, camel: string -> string, hasMethod: string -> bool,
                     returnsBuilder: string -> bool, hasColumn: string -> bool)
    requires !(hasMethod(SorterMethodName(req, camel)) && returnsBuilder(SorterMethodName(req, camel)))
    requires !hasColumn(Get(req, "sort_by", "id")) || !Truthy(Get(req, "sort_by", "id"))
    ensures forall a :: a in Order(req, camel, hasMethod, returnsBuilder, hasColumn) ==> a.CallSorter?
  {
  }

  /**
   * Ordering by column: with no sorter method, a request naming an existing
   * column (or none, when `id` exists) orders by it, ascending unless
   * `sort_order` says otherwise.
   */
  lemma OrderByColumnDefaults(req: Request, camel: string -> string, hasMethod: string -> bool,
                              returnsBuilder: string -> bool, hasColumn: string -> bool)
    requires !hasMethod(SorterMethodName(req, camel))
    requires hasColumn(Get(req, "sort_by", "id")) && Truthy(Get(req, "sort_by", "id"))
    ensures Order(req, camel, hasMethod, returnsBuilder, hasColumn)
         == [OrderBy(Column(Get(req, "sort_by", "id")), Get(req, "sort_order", "asc"))]
    ensures "sort_by" !in req.params && "sort_order" !in req.params ==>
      Order(req, camel, hasMethod, returnsBuilder, hasColumn) == [OrderBy(Column("id"), "asc")]
  {
  }

  /**
   * A sorter method that returns the builder runs twice (once to decide,
   * once for the argument) and its builder is what `orderBy` receives.
   */
  lemma SorterRunsTwice(req: Request, camel: string -> string, hasMethod: string -> bool,
                        returnsBuilder: string -> bool, hasColumn: string -> bool)
    requires hasMethod(SorterMethodName(req, camel)) && returnsBuilder(SorterMethodName(req, camel))
    ensures var m := SorterMethodName(req, camel);
      Order(req, camel, hasMethod, returnsBuilder, hasColumn)
        == [CallSorter(m), CallSorter(m), OrderBy(SorterBuilder(m), Get(req, "sort_order", "asc"))]
  {
  }

  /**
   * A sorter method that exists but returns null (it may order the builder
   * itself) still runs twice, and a truthy existing column is then ordered
   * by as well, ascending unless `sort_order` says otherwise.
   */
  lemma NullSorterOrdersByColumn(req: Request, camel: string -> string, hasMethod: string -> bool,
                                 returnsBuilder: string -> bool, hasColumn: string -> bool)
    requires hasMethod(SorterMethodName(req, camel)) && !returnsBuilder(SorterMethodName(req, camel))
    requires hasColumn(Get(req, "sort_by", "id")) && Truthy(Get(req, "sort_by", "id"))
    ensures var m := SorterMethodName(req, camel);
      Order(req, camel, hasMethod, returnsBuilder, hasColumn)
        == [CallSorter(m), CallSorter(m), OrderBy(Column(Get(req, "sort_by", "id")), Get(req, "sort_order", "asc"))]
  {
  }

  /** In every case the trace is sorter calls followed by at most one `orderBy`. */
  lemma OrderShape(req: Request, camel: string -> string, hasMethod: string -> bool,
                   returnsBuilder: string -> bool, hasColumn: string -> bool)
    ensures OrdersAtEnd(Order(req, camel, hasMethod, returnsBuilder, hasColumn))
    ensures |Order(req, camel, hasMethod, returnsBuilder, hasColumn)| <= 3
  {
  }
}

/** `EloquentFilter` (the older package's filter base class). */
module FilterQuery {
  import opened Php
  import opened Requests

  /** `getFilters()`: the request filters whose key is one of the class's own methods, no renaming. */
  function GetFilters(req: Request, classMethods: seq<string>, baseMethods: seq<string>): (r: Assoc)
    ensures forall k, v :: HasEntry(r, k, v) <==> HasEntry(req.filter, k, v) && k in classMethods && k !in baseMethods
    ensures IsSubsequence(r, req.filter)
  {
    OnlyKeys(req.filter, FilterMethods(classMethods, baseMethods))
  }

  /** `apply($builder)`: each surviving filter method is called with its value, in the request's order. */
  function ApplyCalls(req: Request, classMethods: seq<string>, baseMethods: seq<string>): (calls: seq<(string, string)>)
    ensures forall m, v :: HasEntry(calls, m, v) <==> HasEntry(req.filter, m, v) && m in classMethods && m !in baseMethods
    ensures DistinctKeys(req.filter) ==> DistinctKeys(calls)
    ensures IsSubsequence(calls, req.filter)
  {
    GetFilters(req, classMethods, baseMethods)
  }

  /** The single `orderBy` `order()` adds: (column, direction). */
  function Order(req: Request): (string, string) {
    (Get(req, "sort_by", "name"), Get(req, "sort_order", "desc"))
  }

  /** `order()` always orders, by `name` descending unless the request says otherwise. */
  lemma OrderDefaults(req: Request)
    ensures "sort_by" !in req.params ==> Order(req).0 == "name"
    ensures "sort_order" !in req.params ==> Order(req).1 == "desc"
    ensures "sort_by" in req.params ==> Order(req).0 == req.params["sort_by"]
    ensures "sort_order" in req.params ==> Order(req).1 == req.params["sort_order"]
  {
  }
}

=== FILE: stub_functions.dfy ===
/**
 * `UsesStubFunctionsTrait`: where a generated class goes, the
 * skip-if-exists rule for writing it, stub conversion, and the notice about
 * a missing model class. The file system is a map from path to contents
 * plus the set of directories made; console output is a list of lines.
 */
module StubFunctions {
  import opened Php
  import opened Names
  import opened Stubs
  import opened Config
  import opened FolderConfig

  datatype Line = Info(text: string) | Error(text: string)

  /** What `setModelName` prints before stopping the command when no model is given. */
  const ArgumentMissing: string := "Argument for model name (eg. 'YourModel' or 'Foo\\Bar') must be specified!"

  datatype FileSystem = FileSystem(files: map<string, string>, dirs: set<string>)

  /** The state a command's steps thread through. */
  datatype Effect = Effect(fs: FileSystem, out: seq<Line>)

  /** `$file` in `makeClass`: `target . pathSuffix . '/' . baseName . stub . '.php'` (a null suffix adds nothing). */
  function TargetFile(target: string, parts: ModelParts, stub: string): string {
    target + SuffixText(parts.pathSuffix) + "/" + parts.baseName + stub + ".php"
  }

  /**
   * For a name on one line the class file is the target, a `/`, the whole
   * name in path form, the stub name and `.php`, nested or not.
   */
  lemma TargetFileFollowsName(target: string, name: string, stub: string)
    requires '\n' !in name
    ensures TargetFile(target, SplitModelNameToParts(name), stub)
         == target + "/" + ToPathFormat(name) + stub + ".php"
  {
    SplitPathText(name);
    TargetFileOfPath(target, SplitModelNameToParts(name), stub, "/" + ToPathFormat(name));
  }

  /** The class file is the target, the suffix-slash-base path, the stub name and `.php`. */
  lemma TargetFileOfPath(target: string, parts: ModelParts, stub: string, path: string)
    requires SuffixText(parts.pathSuffix) + "/" + parts.baseName == path
    ensures TargetFile(target, parts, stub) == target + path + stub + ".php"
  {
    var s := SuffixText(parts.pathSuffix);
    assert target + s + "/" + parts.baseName == target + (s + "/" + parts.baseName);
  }

  /**
   * `makeClass($stub, $target)` with the converted stub `content`: an
   * existing file is reported and skipped (no folder, no write); otherwise
   * the folder is made and the file written.
   */
  function MakeClass(e: Effect, stub: string, target: string, parts: ModelParts, content: string): (r: Effect)
    ensures forall p :: p in e.fs.files ==> p in r.fs.files && r.fs.files[p] == e.fs.files[p]
    ensures r.fs.files.Keys == e.fs.files.Keys + {TargetFile(target, parts, stub)}
    ensures TargetFile(target, parts, stub) in e.fs.files ==> r.fs == e.fs
    ensures TargetFile(target, parts, stub) !in e.fs.files ==>
      r.fs.files[TargetFile(target, parts, stub)] == content &&
      r.fs.dirs == e.fs.dirs + {target + SuffixText(parts.pathSuffix)}
    ensures |r.out| == |e.out| + 1 && r.out[..|e.out|] == e.out
    ensures r.out[|e.out|].Info? <==> TargetFile(target, parts, stub) !in e.fs.files
  {
    var file := TargetFile(target, parts, stub);
    if file in e.fs.files then
      Effect(e.fs, e.out + [Error("Class `" + file + "` already exists, skipped.")])
    else
      var folder := target + SuffixText(parts.pathSuffix);
      Effect(
        FileSystem(e.fs.files[file := content], e.fs.dirs + {folder}),
        e.out + [Info("Class `" + file + "` was created.")])
  }

  /** A second `makeClass` for the same class changes no file and no folder. */
  lemma MakeClassIdempotent(e: Effect, stub: string, target: string, parts: ModelParts, content: string, content2: string)
    ensures var once := MakeClass(e, stub, target, parts, content);
      MakeClass(once, stub, target, parts, content2).fs == once.fs
  {
  }

  /**
   * `str_replace([modelToken, nsToken], [baseName, ns], $stub)`, the
   * `getConvertedStubContent` both the getter and the filter command use.
   */
  function ConvertStub(stubText: string, baseName: string, nsName: string, ns: string): string {
    ReplaceEach(stubText, [(Token("modelName"), baseName), (Token(nsName), ns)])
  }

  /**
   * The first pass fills `{{modelName}}` wherever the template has it; the
   * second pass then scans that result, base name included, for the
   * namespace placeholder.
   */
  lemma ConvertStubPasses(t: Template, baseName: string, nsName: string, ns: string)
    requires WellFormed(t)
    ensures ConvertStub(Flatten(t), baseName, nsName, ns)
         == ReplaceAll(Flatten(Fill(t, "modelName", baseName)), Token(nsName), ns)
  {
    assert ValidName("modelName");
    ReplaceEachPair(Flatten(t), (Token("modelName"), baseName), (Token(nsName), ns));
    ReplaceIsFill(t, "modelName", baseName);
  }

  /**
   * Read as a template, the converted stub fills `{{modelName}}` with the
   * base name and the namespace placeholder with the namespace; every other
   * placeholder and all literal text stay as they were. The base name must
   * not itself start a placeholder, since the second pass scans it.
   */
  lemma ConvertStubFillsTemplate(t: Template, baseName: string, nsName: string, ns: string)
    requires WellFormed(t) && ValidName(nsName)
    requires LoneBraces(baseName)
    ensures ConvertStub(Flatten(t), baseName, nsName, ns)
         == Flatten(Fill(Fill(t, "modelName", baseName), nsName, ns))
  {
    ConvertStubPasses(t, baseName, nsName, ns);
    FillKeepsWellFormed(t, "modelName", baseName);
    ReplaceIsFill(Fill(t, "modelName", baseName), nsName, ns);
  }

  /** A base name that is itself the namespace placeholder is replaced by the namespace in the second pass. */
  lemma ConvertStubRescansBaseName(nsName: string, ns: string)
    ensures ConvertStub(Token("modelName"), Token(nsName), nsName, ns) == ns
  {
    var m, n := Token("modelName"), Token(nsName);
    ReplaceEachPair(m, (m, n), (n, ns));
    ReplaceAllLeading("", m, n);
    ReplaceAllShort("", m, n);
    assert m + "" == m && n + "" == n;
    ReplaceAllLeading("", n, ns);
    ReplaceAllShort("", n, ns);
  }

  /** A stub holding neither placeholder is written verbatim. */
  lemma ConvertStubKeepsPlainText(text: string, baseName: string, nsName: string, ns: string)
    requires !Contains(text, Token("modelName")) && !Contains(text, Token(nsName))
    ensures ConvertStub(text, baseName, nsName, ns) == text
  {
    ReplaceEachPair(text, (Token("modelName"), baseName), (Token(nsName), ns));
    ReplaceAllAbsent(text, Token("modelName"), baseName);
    ReplaceAllAbsent(text, Token(nsName), ns);
  }

  /** The model class file `modelExists` looks for. */
  function ModelFile(parts: ModelParts, config: RepositoryConfig, appPath: string -> string): string {
    FolderConfig.ClassFile("models", parts.name, config, appPath)
  }

  /** `getModelsNamespace()`, whose memoised value is always this one. */
  function ModelsNamespace(config: RepositoryConfig): string {
    NamespaceFor(config, "models") + "\\"
  }

  /** `warnIfModelNotExists()`: one notice when the model class file is absent, nothing otherwise. */
  function WarnIfModelNotExists(e: Effect, parts: ModelParts, config: RepositoryConfig, appPath: string -> string): (r: Effect)
    ensures r.fs == e.fs
    ensures ModelFile(parts, config, appPath) in e.fs.files ==> r.out == e.out
    ensures ModelFile(parts, config, appPath) !in e.fs.files ==>
      |r.out| == |e.out| + 1 && r.out[..|e.out|] == e.out && r.out[|e.out|].Error?
  {
    if ModelFile(parts, config, appPath) in e.fs.files then e
    else
      Effect(e.fs, e.out + [Error("NOTICE: Model class `" + ModelsNamespace(config) + parts.name
        + "` does not exists yet! Don´t forget to create it.")])
  }
}

=== FILE: stubs.dfy ===
/**
 * Stub templates: text with `{{name}}` placeholders. A template is read as
 * a sequence of literal segments and placeholder holes, which gives an
 * independent meaning to the `str_replace` substitution the commands perform.
 */
module Stubs {
  import opened Php

  /** The placeholder token `{{name}}`. */
  function Token(name: string): (t: string)
    ensures |t| == |name| + 4
    ensures t[0] == '{' && t[1] == '{'
  {
    "{{" + name + "}}"
  }

  /** Placeholder names are free of braces (`modelName`, `gettersNamespace`, ...). */
  predicate ValidName(name: string) {
    '{' !in name && '}' !in name
  }

  datatype Segment = Text(text: string) | Hole(name: string)

  type Template = seq<Segment>

  function SegmentText(g: Segment): string {
    match g
    case Text(x) => x
    case Hole(n) => Token(n)
  }

  /** The stub file's contents. */
  function Flatten(t: Template): string
    decreases |t|
  {
    if |t| == 0 then "" else SegmentText(t[0]) + Flatten(t[1..])
  }

  /**
   * Every `{` of the text is followed, inside the text, by a character other
   * than `{`: a class body's braces are fine, but no `{{` starts here.
   */
  predicate LoneBraces(x: string) {
    forall i :: 0 <= i < |x| && x[i] == '{' ==> i + 1 < |x| && x[i + 1] != '{'
  }

  /** Literal text starts no placeholder; every hole has a brace-free name. */
  predicate WellFormed(t: Template) {
    forall i :: 0 <= i < |t| ==>
      match t[i]
      case Text(x) => LoneBraces(x)
      case Hole(n) => ValidName(n)
  }

  /** A brace-free text has only lone braces. */
  lemma BraceFreeIsLone(x: string)
    requires '{' !in x
    ensures LoneBraces(x)
  {
  }

  /** The tail of a text with lone braces has lone braces. */
  lemma LoneBracesTail(x: string)
    requires |x| > 0 && LoneBraces(x)
    ensures LoneBraces(x[1..])
  {
    forall i | 0 <= i < |x[1..]| && x[1..][i] == '{'
      ensures i + 1 < |x[1..]| && x[1..][i + 1] != '{'
    {
      assert x[i + 1] == '{';
    }
  }

  /**
   * Text with lone braces passes through a `{{...}}` substitution verbatim,
   * whatever follows it: no occurrence of the needle can start inside it.
   */
  lemma {:induction false} SkipsLoneBraces(p: string, s: string, pat: string, rep: string)
    requires |pat| >= 2 && pat[0] == '{' && pat[1] == '{'
    requires LoneBraces(p)
    ensures ReplaceAll(p + s, pat, rep) == p + ReplaceAll(s, pat, rep)
    decreases |p|
  {
    if |p| == 0 {
      assert p + s == s;
    } else {
      var t := p + s;
      assert t[1..] == p[1..] + s;
      if |t| < |pat| {
        ReplaceAllShort(s, pat, rep);
      } else {
        if p[0] == '{' {
          assert t[1] == p[1] != pat[1];
        } else {
          assert t[0] != pat[0];
        }
        assert t[..|pat|] != pat;
        LoneBracesTail(p);
        SkipsLoneBraces(p[1..], s, pat, rep);
        StepOver(p[0], p[1..] + s, pat, rep);
        assert t == [p[0]] + (p[1..] + s);
        assert p == [p[0]] + p[1..];
      }
    }
  }

  /** Fills every hole named `name` with literal `value`; other holes stay. */
  function Fill(t: Template, name: string, value: string): (r: Template)
    ensures |r| == |t|
    ensures forall i :: 0 <= i < |t| && t[i] != Hole(name) ==> r[i] == t[i]
    ensures forall i :: 0 <= i < |t| && t[i] == Hole(name) ==> r[i] == Text(value)
  {
    seq(|t|, i requires 0 <= i < |t| => if t[i] == Hole(name) then Text(value) else t[i])
  }

  /** Two different tokens never match each other at the same position. */
  lemma DistinctTokensDiffer(n: string, name: string, s: string)
    requires ValidName(n) && ValidName(name) && n != name
    requires |Token(n) + s| >= |Token(name)|
    ensures (Token(n) + s)[..|Token(name)|] != Token(name)
  {
    var o, tk, s0 := Token(n), Token(name), Token(n) + s;
    if |n| < |name| {
      assert name[|n|] in name;
      assert s0[..|tk|][2 + |n|] == o[2 + |n|] == '}' != name[|n|] == tk[2 + |n|];
    } else if |name| < |n| {
      assert n[|name|] in n;
      assert s0[..|tk|][2 + |name|] == o[2 + |name|] == n[|name|] != '}' == tk[2 + |name|];
    } else {
      assert s0[..|tk|] == o;
      assert o[2..2 + |n|] == n && tk[2..2 + |name|] == name;
    }
  }

  /**
   * A first character at which the needle does not start passes through,
   * and the scan goes on right after it.
   */
  lemma StepOver(c: char, s: string, pat: string, rep: string)
    requires |pat| > 0
    requires |[c] + s| >= |pat| ==> ([c] + s)[..|pat|] != pat
    ensures ReplaceAll([c] + s, pat, rep) == [c] + ReplaceAll(s, pat, rep)
  {
    assert ([c] + s)[1..] == s;
    if |[c] + s| < |pat| {
      ReplaceAllShort(s, pat, rep);
    }
  }

  /** The text after a token's first brace never starts another token. */
  lemma SecondBraceDiffers(n: string, name: string, s: string)
    requires ValidName(n)
    ensures var s1 := ['{'] + (n + "}}" + s);
      |s1| >= |Token(name)| ==> s1[..|Token(name)|] != Token(name)
  {
    var tk, s1 := Token(name), ['{'] + (n + "}}" + s);
    if |s1| >= |tk| {
      if |n| > 0 {
        assert s1[1] == n[0] && n[0] in n;
      } else {
        assert s1[1] == '}';
      }
      assert s1[..|tk|][1] != tk[1];
    }
  }

  /** A token is two braces, its name, and two closing braces; the part after the braces has no `{`. */
  lemma TokenLayout(n: string, x: string)
    requires ValidName(n)
    ensures Token(n) + x == ['{'] + (['{'] + ((n + "}}") + x))
    ensures '{' !in n + "}}"
  {
  }

  /** Another well-formed token passes through a substitution untouched. */
  lemma OtherTokenPassesThrough(n: string, name: string, s: string, value: string)
    requires ValidName(n) && ValidName(name) && n != name
    ensures ReplaceAll(Token(n) + s, Token(name), value)
         == Token(n) + ReplaceAll(s, Token(name), value)
  {
    var tk, tail := Token(name), n + "}}";
    var rest := ReplaceAll(s, tk, value);
    TokenLayout(n, s);
    TokenLayout(n, rest);
    ReplaceAllSkipsPrefix(tail, s, tk, value);
    SecondBraceDiffers(n, name, s);
    StepOver('{', tail + s, tk, value);
    var s1 := ['{'] + (tail + s);
    if |Token(n) + s| >= |tk| {
      DistinctTokensDiffer(n, name, s);
    }
    StepOver('{', s1, tk, value);
  }

  /**
   * Replacing `{{name}}` in a stub's text is filling the holes named
   * `name`: placeholders are only found where the template has them, and
   * the inserted value is never rescanned.
   */
  lemma {:induction false} ReplaceIsFill(t: Template, name: string, value: string)
    requires WellFormed(t) && ValidName(name)
    ensures ReplaceAll(Flatten(t), Token(name), value) == Flatten(Fill(t, name, value))
    decreases |t|
  {
    var tk := Token(name);
    if |t| == 0 {
      ReplaceAllShort("", tk, value);
    } else {
      var rest := Flatten(t[1..]);
      WellFormedTail(t);
      ReplaceIsFill(t[1..], name, value);
      var f := Fill(t, name, value);
      assert f[1..] == Fill(t[1..], name, value);
      assert Flatten(f) == SegmentText(f[0]) + Flatten(f[1..]);
      match t[0]
      case Text(x) =>
        assert LoneBraces(x);
        SkipsLoneBraces(x, rest, tk, value);
      case Hole(n) =>
        if n == name {
          ReplaceAllLeading(rest, tk, value);
        } else {
          assert ValidName(n);
          OtherTokenPassesThrough(n, name, rest, value);
        }
    }
  }

  lemma WellFormedTail(t: Template)
    requires |t| > 0 && WellFormed(t)
    ensures WellFormed(t[1..])
  {
    forall i | 0 <= i < |t[1..]|
      ensures match t[1..][i]
              case Text(x) => LoneBraces(x)
              case Hole(n) => ValidName(n)
    {
      assert t[1..][i] == t[i + 1];
    }
  }

  /** Filling with a value that starts no placeholder keeps the template well formed. */
  lemma FillKeepsWellFormed(t: Template, name: string, value: string)
    requires WellFormed(t) && LoneBraces(value)
    ensures WellFormed(Fill(t, name, value))
  {
  }

  /** A class stub in the package's style, with its body's braces, is a well-formed template. */
  lemma ClassStubWellFormed()
    ensures WellFormed([Text("class "), Hole("modelName"), Text("Getter {}")])
  {
    var t := [Text("class "), Hole("modelName"), Text("Getter {}")];
    assert "Getter {}"[7] == '{' && "Getter {}"[8] == '}';
    forall i | 0 <= i < |"Getter {}"| && "Getter {}"[i] == '{'
      ensures i == 7
    {
    }
    assert LoneBraces("Getter {}");
    assert '{' !in "class ";
    assert ValidName("modelName");
  }
}
